=== FILE: README.md ===
# gocnc optimisation passes in Dafny

This project models the optimisation passes of gocnc's virtual machine
(`vm/optimize.go`). Each pass rewrites the machine's position stack, which is
the ordered list of moves a G-code program makes. Each pass is a pure function
from a stack (`seq<Position>`) to a new stack. The two passes that can refuse
return a `PassResult`: the stack the machine holds afterwards, plus the error
reported, if any.

| module | file | pass |
|---|---|---|
| `Toolpath` | toolpath.dfy | position records, move modes, errors, the max-height scan, subsequences |
| `DrillSpeed` | drill_speed.dfy | `OptDrillSpeed`: rapid descent into holes that were already drilled |
| `GroupScan` | group_scan.dfy | `OptRouteGrouping`, phase 1: partition into groups, safety height, drill feedrate, the aborting checks |
| `GroupOrder` | group_order.dfy | `OptRouteGrouping`, phase 2: greedy nearest-first ordering from the origin |
| `RouteGrouping` | route_grouping.dfy | `OptRouteGrouping`, phase 3: regenerated travel between groups, and the whole pass |
| `RouteExample` | route_example.dfy | a two-hole program run through the pass, as written and corrected |
| `LiftSpeed` | lift_speed.dfy | `OptLiftSpeed` |
| `BogusMoves` | bogus_moves.dfy | `OptBogusMoves`: the scan, as written and corrected |
| `BogusKept` | bogus_kept.dfy | `OptBogusMoves`: which records survive, described record by record, and the proof that the scan keeps exactly those |
| `FeedSpindle` | feed_spindle.dfy | `LimitFeedrate`, `FeedrateMultiplier`, `EnforceSpindle` |
| `SafetyHeight` | safety_height.dfy | `SetSafetyHeight` |
| `ReturnHome` | return_home.dfy | `Return` |

Every scan in the source starts its "previous position" at (0, 0, 0), not at
the first record. The model does the same with `Toolpath.Prev`. Coordinates
and feedrates are `real`.

Notes on how the route-grouping pass really behaves, taken from the code:

- A group starts at a down move, which is a plunge from z >= 0 to z < 0 at the
  same x,y. The down move is collected twice. The up move that leaves the
  material is not collected.
- Once the first plunge has been seen, every travel record after an up move
  is collected into the NEXT group. A group therefore often starts with a move
  at the safety height. It does not always start at the plunge.
- Records before the first plunge are dropped, except the first record of the
  stack, which is kept.
- The one trailing record that the final check accepts, a lone (0, 0, safety)
  move, is dropped as well.
- The up move after the last group is never regenerated. The rebuilt stack
  ends below Z0 (`RouteGrouping.EndsBelowSurface`). A later `Return` pass adds
  the way home.
- Distances are measured in 3D from the first record of the group picked
  last. Ties go to the earliest remaining group.

## Model

| member | source | states |
|---|---|---|
| `Toolpath.MaxZ` | vm/optimize.go:356-361 | the highest z of the stack, or 0 when no record is above 0, because the scan starts at 0 |
| `DrillSpeed.HistoryMembers` | vm/optimize.go:38-57 | the drill stack at record i holds exactly the earlier plunges: linear moves straight down from the previous x,y |
| `DrillSpeed.RecordedDepth` | vm/optimize.go:26-36 | the lookup finds a depth iff some record at that x,y lies below 0; the depth is the lowest such z and is attained |
| `DrillSpeed.Chunk` | vm/optimize.go:40-64 | each record yields one or two records; the last one is the record itself, possibly promoted to rapid, at the same coordinates |
| `DrillSpeed.ChunkRule` | vm/optimize.go:16-64 | non-plunges and first plunges pass unchanged; a repeat plunge becomes rapid when no deeper than the deepest earlier plunge, and otherwise gets a rapid move to that depth inserted before it |
| `DrillSpeed.OptDrillSpeed` | vm/optimize.go:19-68 | the output has between n and 2n records |
| `DrillSpeed.DrillLayout` | vm/optimize.go:55-67 | the output is the chunks in input order, each at its offset, each ending at the coordinates of its input record |
| `DrillSpeed.DrillLength` | vm/optimize.go:55-67 | the output length is the sum of the chunk lengths |
| `GroupScan.FirstFeedFound` | vm/optimize.go:106-112 | the drill feedrate held after n records is 0 iff no linear down move with a positive feedrate came before, and otherwise the feedrate of the first one |
| `GroupScan.ScanUpTo` | vm/optimize.go:94-133 | the loop can only fail with the two in-loop errors |
| `GroupScan.ScanTracks` | vm/optimize.go:94-112 | the scan stands at the last record read and holds the first drill feedrate offered |
| `GroupScan.ScanKeeps` | vm/optimize.go:94-133 | the scan ends at the last record, holds the maximum z and the first drill feedrate, and keeps finished groups of at least two records ending below Z0 with no z motion combined with x,y |
| `GroupScan.ScanAborts` | vm/optimize.go:95-112 | the loop aborts iff some record moves z together with x or y, or a later drill feedrate exceeds the first |
| `GroupScan.Partition` | vm/optimize.go:94-149 | an accepted stack is non-empty and ends at or above Z0; the safety height is its maximum z and is positive; a drill feedrate was found; at least one group exists; the groups followed by the open group are exactly the records collected from the input, in input order |
| `GroupScan.ScanCollects` | vm/optimize.go:94-126 | after n records the closed groups joined, then the open group, equal the reference collection: each down move twice, no up move, and every other record once a plunge has been seen before it; `sequenceStarted` holds iff some earlier record was a down move |
| `GroupScan.CollectedFromInput` | vm/optimize.go:94-126 | every record the scan collects is a record of the input |
| `GroupScan.PartitionErrors` | vm/optimize.go:94-149 | which error is raised, in terms of the records: complex motion or a rising feedrate; else no height above 0; else no drill feed; and a stack ending below Z0 leaves an incomplete final set |
| `GroupOrder.SelectNearest` | vm/optimize.go:166-177 | the selected group's first record is at least as near as every other group's, and strictly nearer than every earlier group's |
| `GroupOrder.Remove` | vm/optimize.go:180 | removing the selected group keeps the others in order, and the multiset loses exactly that group |
| `GroupOrder.GreedyOrder` | vm/optimize.go:165-182 | the visiting order is a permutation of the groups |
| `GroupOrder.GreedyNearestFirst` | vm/optimize.go:157-182 | every pick is at least as near to the previous pick's first record (the origin for the first pick) as every group picked after it |
| `RouteGrouping.MoveTo` | vm/optimize.go:192-227 | the regenerated travel never moves z together with x,y; it ends at the target's x,y, and at the target unless a lift to the safety height was dropped; far targets get a rise to the safety height and a traverse at that height, both carrying the current record's state with only the mode set to rapid, then a descent to the target carrying the current record's state with the mode set to linear and the feedrate set to the drill feedrate; near targets get a linear correction to the target's x,y at the current height exactly when x,y differ, then the target itself, unchanged, unless it is at the safety height (and, corrected, the tool is already level with it) |
| `RouteGrouping.Pieces` | vm/optimize.go:229-237 | one piece per group |
| `RouteGrouping.PieceAt` | vm/optimize.go:229-237 | the piece of every group after the first is built from the last record of the group before it |
| `RouteGrouping.PiecesLayout` | vm/optimize.go:188-237 | each piece is the travel from where the previous group ended, followed by its group's records after the first, unchanged |
| `RouteGrouping.PiecesLast` | vm/optimize.go:229-237 | the rebuilt records end with the last record of the last group visited |
| `RouteGrouping.Regroup` | vm/optimize.go:77-242 | on any error the stack is unchanged and the error is the one the checks raise; on success the stack starts with the input's first record |
| `RouteGrouping.OptRouteGrouping` | vm/optimize.go:77-242 | the pass as written: an unchanged stack on error; on success a non-empty stack that starts with the first input record |
| `RouteGrouping.OptRouteGroupingLevelLift` | vm/optimize.go:205-210 | the pass with the redundant-lift rule applied only when the tool is already at that height; same error and success guarantees |
| `RouteGrouping.LevelLiftKeepsMotionSeparate` | vm/optimize.go:74-98 | the corrected pass never emits a move that changes z together with x or y, the property the pass demands of its input |
| `RouteGrouping.RedundantLiftLeavesHole` | vm/optimize.go:205-207 | as written, a lift to the safety height at the current x,y is dropped while the tool is below Z0, and the next move leaves the hole diagonally; the corrected rule keeps it |
| `RouteGrouping.EndsBelowSurface` | vm/optimize.go:113-121 | on success the rebuilt stack ends below Z0, because the up move after the last group is not regenerated |
| `RouteExample.TwoHolesScan` | vm/optimize.go:94-149 | the two-hole program partitions into the two groups with safety height 5 and the program's feedrate |
| `RouteExample.TwoHolesOrder` | vm/optimize.go:165-182 | the hole nearer the origin is visited first |
| `RouteExample.TwoHolesAsWritten` | vm/optimize.go:192-237 | as written, the rebuilt two-hole stack goes from (1,0,-1) straight to (2,0,5) |
| `RouteExample.TwoHolesLevelLift` | vm/optimize.go:192-237 | corrected, the rebuilt two-hole stack lifts to (1,0,5) before the traverse |
| `LiftSpeed.OptLiftSpeed` | vm/optimize.go:247-256 | records that only raise z from the previous x,y become rapid; nothing else changes |
| `LiftSpeed.LiftSpeedIdempotent` | vm/optimize.go:247-256 | running the pass twice is running it once |
| `BogusMoves.CollapseStep` | vm/optimize.go:268-291 | an arc is appended, and as written the recorded direction survives it (corrected, it is forgotten); a move that goes nowhere changes neither the output nor the direction; a move in the recorded direction replaces the last output record and keeps the direction; any other move is appended and its direction recorded; the position always advances to the record |
| `BogusMoves.CollapseInvariant` | vm/optimize.go:268-292 | the output is a subsequence of the records seen and ends where they end; corrected, it also keeps every arc |
| `BogusMoves.OptBogusMoves` | vm/optimize.go:260-294 | the output is a subsequence of the input, no longer, and ends at the same point; which records it holds is stated by `BogusKept.OptBogusMovesIsKept` |
| `BogusMoves.OptBogusMovesKeepingArcs` | vm/optimize.go:272-276 | corrected pass: the same guarantees, and the arcs of the input survive in order; which records it holds is stated by `BogusKept.KeepingArcsIsKept` |
| `BogusKept.SameDirectionTransitive` | vm/optimize.go:283-290 | two displacements with the same unit vector as a third have the same unit vector as each other, so comparing with the direction that opened a run is comparing with the previous move |
| `BogusKept.CollapseTracks` | vm/optimize.go:268-292 | after any number of records, the corrected scan's output is exactly the records `BogusKept.KeptBy` describes for that prefix, and a direction is recorded exactly when the last record that goes somewhere is a move, whose direction it shares |
| `BogusKept.KeepingArcsIsKept` | vm/optimize.go:260-294 | the corrected pass returns exactly `BogusKept.Kept`: every arc, and every move that goes somewhere and is not followed (past moves that go nowhere) by a move in the same direction, in input order |
| `BogusKept.OptBogusMovesIsKept` | vm/optimize.go:260-294 | on input without arcs, the pass as written returns exactly `BogusKept.Kept` |
| `BogusKept.DirectionChangeSurvives` | vm/optimize.go:286-290 | a move that goes somewhere and is followed by a move in another direction is in the output |
| `BogusKept.ContinuedMoveMerged` | vm/optimize.go:286-287 | a move followed by a move in the same direction is not kept on its own account |
| `BogusKept.LastSurvives` | vm/optimize.go:268-291 | unless the last record is a move that goes nowhere, it is the last record of the output, after the survivors of the earlier records |
| `BogusMoves.ArcOverwritten` | vm/optimize.go:272-290 | as written, an arc between two moves in the same direction is overwritten by the second move; corrected, it stays |
| `BogusMoves.CollinearExample` | vm/optimize.go:278-291 | three moves along one line become one, and a move that goes nowhere is dropped |
| `FeedSpindle.LimitFeedrate` | vm/optimize.go:297-303 | every feedrate above the limit becomes exactly the limit; records already within it are unchanged; only the feedrate changes |
| `FeedSpindle.LimitFeedrateIdempotent` | vm/optimize.go:297-303 | clamping twice to the same limit is clamping once |
| `FeedSpindle.LimitFeedrateCompose` | vm/optimize.go:297-303 | clamping to a and then to b is clamping to the smaller of the two |
| `FeedSpindle.FeedrateMultiplier` | vm/optimize.go:306-310 | every feedrate is multiplied by k and nothing else changes |
| `FeedSpindle.FeedrateMultiplierCompose` | vm/optimize.go:306-310 | multiplying by a and then b is multiplying by a times b |
| `FeedSpindle.FeedrateMultiplierNotIdempotent` | vm/optimize.go:306-310 | a second run changes a non-zero feedrate again unless k is 0 or 1 |
| `FeedSpindle.EnforceSpindle` | vm/optimize.go:313-319 | every record gets the given spindle enable, direction and speed; coordinates, move mode and feedrate are unchanged |
| `FeedSpindle.EnforceSpindleIdempotent` | vm/optimize.go:313-319 | enforcing the same spindle state twice is enforcing it once |
| `SafetyHeight.ScanHeights` | vm/optimize.go:327-336 | the scan yields the maximum z and the next lower height (0 when none above 0) |
| `SafetyHeight.SetSafetyHeight` | vm/optimize.go:324-351 | the request is refused iff it does not clear the next lower height, leaving the stack unchanged; otherwise exactly the straight lifts to the top height move to the new height, which clears every record below the top |
| `SafetyHeight.SafetyHeightRejects` | vm/optimize.go:338-340 | refusal iff the height is at most 0 or at most some record below the top height |
| `SafetyHeight.SafetyHeightExample` | vm/optimize.go:324-351 | with tops 5 and 2, height 3 is applied and height 1.5 is refused with 2 as the colliding height |
| `ReturnHome.Return` | vm/optimize.go:355-395 | the input is kept as a prefix, and at most three rapid moves carrying the last record's state end at the origin; which case applies is stated as iff on the last record; from the top height the tool goes straight over to (0,0) at that height and down, and from below it first rises straight up to the top height; each appended move goes along z only or in x,y only |
| `ReturnHome.ReturnDetermined` | vm/optimize.go:363-393 | any stack meeting the contract of `Return` is the one `Return` builds: the contract fixes every appended record |
| `ReturnHome.ReturnKeepsMaxHeight` | vm/optimize.go:356-392 | the appended moves leave the stack's top height unchanged |
| `ReturnHome.ReturnIdempotent` | vm/optimize.go:363-365 | a second run appends nothing |
| `ReturnHome.ReturnExample` | vm/optimize.go:381-393 | ending at (10,10,0) under a top height of 5 appends (10,10,5), (0,0,5), (0,0,0) |

## Left out

- Floating point. Coordinates, feedrates and the tolerance are reals, so rounding in the differences, the division in the unit vectors and the square roots is not modelled.
- GroupOrder.Dist2: the pass compares square roots of sums of squares; the model compares the sums themselves, which orders groups the same way over the reals.
- BogusMoves.SameDirection: equal unit vectors are modelled as parallel displacements pointing the same way, not as equality of rounded quotients.
- BogusKept.OptBogusMovesIsKept: describes the pass as written only on input without arcs. With arcs, the pass as written can overwrite an arc (see Findings); `BogusKept.KeepingArcsIsKept` describes the corrected pass on every input.
- The error texts and the panic/recover mechanism of `OptRouteGrouping`. Each panic is modelled as an `Error` value, and the stack is left unchanged as in the source.
- The `Machine` struct and its other fields. Only the position stack and the tolerance are used here; the tolerance is a parameter.
- The index panics in `OptRouteGrouping` for an empty stack or an empty group cannot happen: an accepted stack is non-empty (`GroupScan.Partition`) and every group has at least two records.
- ReturnHome.Return: requires a non-empty stack; on an empty stack the source reads past the end and panics, which is not modelled.
- GroupScan.PartitionErrors: states the condition for IncompleteFinalSet in one direction only, for a stack ending below Z0. Trailing travel records after the last up move also raise it.
- RouteGrouping.OptRouteGrouping: its own contract states only the error behaviour and the first record; the layout of the rebuilt stack is stated by `RouteGrouping.PiecesLayout`, `RouteGrouping.PiecesLast` and `RouteGrouping.EndsBelowSurface`.
- GroupOrder.GreedyNearestFirst: states that each pick is a nearest one, not which of several equally near groups is picked. `GroupOrder.SelectNearest` states the tie-break for a single round.
- GroupScan.Partition: states which records the groups hold, in input order (`GroupScan.Collected`: a down move twice, up moves left out), and that each group ends below Z0, but not at which up move each group is closed. A group is therefore not stated to be a contiguous run of the input, and it is not one exactly, since its down move appears twice.
- The first round of the ordering loop starts with `selectedSet` at 0 rather than -1. Group 0 compared with itself is never strictly nearer, so both starts select the same group, and the model has one selection rule.

## Findings

| source | as written | input that shows it | evidently intended | confidence | as-written member | corrected member |
|---|---|---|---|---|---|---|
| vm/optimize.go:272-290 | an arc passes through but leaves the last direction recorded, so a following move in that direction overwrites the arc's output slot | linear to (1,0,0), arc to (2,5,0), linear to (3,5,0): the output is [(1,0,0), (3,5,0)] | an arc ends the run of same-direction moves, so every arc survives | high, not executed | `BogusMoves.ArcOverwritten` | `BogusMoves.OptBogusMovesKeepingArcs` |
| vm/optimize.go:205-207 | a group's first record at the safety height within tolerance is always dropped as a redundant lift, even when the tool is still at the bottom of the previous hole | the `RouteExample.TwoHoles` program with tolerance 0.5: the rebuilt stack goes from (1,0,-1) straight to (2,0,5) | the lift is redundant only when the tool is already at the safety height | medium, not executed | `RouteExample.TwoHolesAsWritten` | `RouteGrouping.OptRouteGroupingLevelLift` |

The corrected route-grouping pass is proved never to move z together with
x or y (`RouteGrouping.LevelLiftKeepsMotionSeparate`). The as-written pass
breaks this on the two-hole program, and in general whenever the premises of
`RouteGrouping.RedundantLiftLeavesHole` hold.

=== FILE: bogus_kept.dfy ===
/** Which records the bogus-move pass keeps, described record by record without
    reference to the scan, and the proof that the scan keeps exactly those. */
module BogusKept {
  import opened Toolpath
  import opened BogusMoves

  /** `SameDirection` relates two displacements with the same unit vector.
      With exact arithmetic it is symmetric and transitive, so the direction
      recorded at the start of a run stands for every move in it. The facts
      below lead there; this first one says a square is never negative. */
  lemma Square(r: real)
    ensures r * r >= 0.0
    ensures r != 0.0 ==> r * r > 0.0
  {
    if r < 0.0 {
      assert r * r == (-r) * (-r);
    }
  }

  lemma SumOfSquares(a: real, b: real, c: real)
    requires a != 0.0 || b != 0.0 || c != 0.0
    ensures a * a + b * b + c * c > 0.0
  {
    Square(a);
    Square(b);
    Square(c);
  }

  /** One coordinate of `u` is the matching coordinate of `v` times `a / s`
      when `u` and `v` are parallel (`s` is the squared length of `v`, `a` their
      dot product). */
  lemma ParallelRow(ux: real, uy: real, uz: real, vx: real, vy: real, vz: real, s: real, a: real)
    requires s == vx * vx + vy * vy + vz * vz && s != 0.0
    requires a == ux * vx + uy * vy + uz * vz
    requires uy * vz - uz * vy == 0.0 && uz * vx - ux * vz == 0.0 && ux * vy - uy * vx == 0.0
    ensures ux == vx * (a / s)
  {
    assert ux * s - vx * a == vy * (ux * vy - uy * vx) - vz * (uz * vx - ux * vz);
    assert ux * s == vx * a;
    assert ux == (vx * a) / s;
  }

  lemma MinorOfMultiples(py: real, pz: real, qy: real, qz: real, k: real, m: real)
    ensures (py * k) * (qz * m) - (pz * k) * (qy * m) == (py * qz - pz * qy) * (k * m)
  {
  }

  /** Two multiples of the same vector are parallel. */
  lemma CrossOfMultiples(ux: real, uy: real, uz: real, vx: real, vy: real, vz: real,
                         wx: real, wy: real, wz: real, k: real, m: real)
    requires ux == vx * k && uy == vy * k && uz == vz * k
    requires wx == vx * m && wy == vy * m && wz == vz * m
    ensures uy * wz - uz * wy == 0.0 && uz * wx - ux * wz == 0.0 && ux * wy - uy * wx == 0.0
  {
    MinorOfMultiples(vy, vz, vy, vz, k, m);
    MinorOfMultiples(vz, vx, vz, vx, k, m);
    MinorOfMultiples(vx, vy, vx, vy, k, m);
  }

  /** Two positive multiples of the same non-zero vector point the same way. */
  lemma DotOfMultiples(ux: real, uy: real, uz: real, vx: real, vy: real, vz: real,
                       wx: real, wy: real, wz: real, k: real, m: real)
    requires ux == vx * k && uy == vy * k && uz == vz * k
    requires wx == vx * m && wy == vy * m && wz == vz * m
    requires vx * vx + vy * vy + vz * vz > 0.0 && k > 0.0 && m > 0.0
    ensures ux * wx + uy * wy + uz * wz > 0.0
  {
    var s := vx * vx + vy * vy + vz * vz;
    assert (vx * k) * (vx * m) + (vy * k) * (vy * m) + (vz * k) * (vz * m) == s * (k * m);
    assert k * m > 0.0;
  }

  /** Transitivity of "same direction", coordinate by coordinate. */
  lemma SameDirectionCoordinates(ux: real, uy: real, uz: real, vx: real, vy: real, vz: real,
                                 wx: real, wy: real, wz: real)
    requires vx != 0.0 || vy != 0.0 || vz != 0.0
    requires uy * vz - uz * vy == 0.0 && uz * vx - ux * vz == 0.0 && ux * vy - uy * vx == 0.0
    requires vy * wz - vz * wy == 0.0 && vz * wx - vx * wz == 0.0 && vx * wy - vy * wx == 0.0
    requires ux * vx + uy * vy + uz * vz > 0.0
    requires vx * wx + vy * wy + vz * wz > 0.0
    ensures uy * wz - uz * wy == 0.0 && uz * wx - ux * wz == 0.0 && ux * wy - uy * wx == 0.0
    ensures ux * wx + uy * wy + uz * wz > 0.0
  {
    var s := vx * vx + vy * vy + vz * vz;
    SumOfSquares(vx, vy, vz);
    var a := ux * vx + uy * vy + uz * vz;
    var b := wx * vx + wy * vy + wz * vz;
    ParallelRow(ux, uy, uz, vx, vy, vz, s, a);
    ParallelRow(uy, uz, ux, vy, vz, vx, s, a);
    ParallelRow(uz, ux, uy, vz, vx, vy, s, a);
    ParallelRow(wx, wy, wz, vx, vy, vz, s, b);
    ParallelRow(wy, wz, wx, vy, vz, vx, s, b);
    ParallelRow(wz, wx, wy, vz, vx, vy, s, b);
    var k, m := a / s, b / s;
    assert k > 0.0 && m > 0.0;
    CrossOfMultiples(ux, uy, uz, vx, vy, vz, wx, wy, wz, k, m);
    DotOfMultiples(ux, uy, uz, vx, vy, vz, wx, wy, wz, k, m);
  }

  lemma SameDirectionSymmetric(u: Point, v: Point)
    requires SameDirection(u, v)
    ensures SameDirection(v, u)
  {
  }

  lemma SameDirectionTransitive(u: Point, v: Point, w: Point)
    requires SameDirection(u, v) && SameDirection(v, w)
    ensures SameDirection(u, w)
  {
    SameDirectionCoordinates(u.x, u.y, u.z, v.x, v.y, v.z, w.x, w.y, w.z);
  }

  /** The reference description starts here. The displacement of record `i`
      from where the tool stood before it. */
  function Step(ps: seq<Position>, i: nat): Point
    requires i < |ps|
  {
    Displacement(Prev(ps, i), At(ps[i]))
  }

  /** Record `i` is a straight move that goes nowhere. */
  predicate Idle(ps: seq<Position>, i: nat)
    requires i < |ps|
  {
    !IsArc(ps[i]) && Step(ps, i) == Origin
  }

  /** The first record from `k` on, among the first `n`, that is not idle. */
  function Follow(ps: seq<Position>, n: nat, k: nat): (r: Option<nat>)
    requires k <= n <= |ps|
    ensures r.Some? ==> k <= r.value < n && !Idle(ps, r.value)
    ensures r.None? ==> forall i :: k <= i < n ==> Idle(ps, i)
    decreases n - k
  {
    if k == n then None
    else if Idle(ps, k) then Follow(ps, n, k + 1)
    else Some(k)
  }

  /** Whether record `i` survives the corrected pass over the first `n`
      records: an arc always does; a straight move does when it goes somewhere
      and the next record that goes somewhere is an arc, a move in another
      direction, or missing. */
  predicate KeptBy(ps: seq<Position>, n: nat, i: nat)
    requires i < n <= |ps|
  {
    || IsArc(ps[i])
    || (&& Step(ps, i) != Origin
        && (match Follow(ps, n, i + 1)
            case None => true
            case Some(j) => IsArc(ps[j]) || !SameDirection(Step(ps, i), Step(ps, j))))
  }

  /** The records among the first `k` that survive the first `n`, in input order. */
  function Select(ps: seq<Position>, n: nat, k: nat): seq<Position>
    requires k <= n <= |ps|
    decreases k
  {
    if k == 0 then []
    else Select(ps, n, k - 1) + (if KeptBy(ps, n, k - 1) then [ps[k - 1]] else [])
  }

  /** The records of `ps` that survive the corrected pass. */
  function Kept(ps: seq<Position>): seq<Position> {
    Select(ps, |ps|, |ps|)
  }

  /** How the description changes when one more record is read turns on the
      last record among the first `n` that is not idle. */
  function LastStop(ps: seq<Position>, n: nat): (r: Option<nat>)
    requires n <= |ps|
    ensures r.Some? ==> r.value < n && !Idle(ps, r.value)
    decreases n
  {
    if n == 0 then None
    else if !Idle(ps, n - 1) then Some(n - 1)
    else LastStop(ps, n - 1)
  }

  lemma {:induction false} FollowExtend(ps: seq<Position>, n: nat, k: nat)
    requires k <= n < |ps|
    ensures Follow(ps, n + 1, k) ==
      if Follow(ps, n, k).Some? then Follow(ps, n, k)
      else if Idle(ps, n) then None
      else Some(n)
    decreases n - k
  {
    if k < n && Idle(ps, k) {
      FollowExtend(ps, n, k + 1);
    }
  }

  /** A record that goes somewhere with only idle records after it is the last stop. */
  lemma {:induction false} OpenIsLastStop(ps: seq<Position>, n: nat, i: nat)
    requires i < n <= |ps|
    requires !Idle(ps, i) && Follow(ps, n, i + 1) == None
    ensures LastStop(ps, n) == Some(i)
    decreases n
  {
    if i < n - 1 {
      FollowExtend(ps, n - 1, i + 1);
      OpenIsLastStop(ps, n - 1, i);
    }
  }

  /** Only idle records follow the last stop. */
  lemma {:induction false} LastStopIsOpen(ps: seq<Position>, n: nat)
    requires n <= |ps| && LastStop(ps, n).Some?
    ensures Follow(ps, n, LastStop(ps, n).value + 1) == None
    decreases n
  {
    var l := LastStop(ps, n).value;
    if Idle(ps, n - 1) {
      LastStopIsOpen(ps, n - 1);
      FollowExtend(ps, n - 1, l + 1);
    }
  }

  /** Reading record `n` changes whether an earlier record survives only for
      the last stop, when that is a move and record `n` continues its direction. */
  lemma KeptStable(ps: seq<Position>, n: nat, i: nat)
    requires i < n < |ps|
    ensures KeptBy(ps, n + 1, i) != KeptBy(ps, n, i) ==>
      && LastStop(ps, n) == Some(i) && !IsArc(ps[i])
      && !IsArc(ps[n]) && SameDirection(Step(ps, i), Step(ps, n))
  {
    FollowExtend(ps, n, i + 1);
    if KeptBy(ps, n + 1, i) != KeptBy(ps, n, i) {
      OpenIsLastStop(ps, n, i);
    }
  }

  lemma {:induction false} SelectStable(ps: seq<Position>, n: nat, k: nat)
    requires k <= n < |ps|
    requires forall i :: 0 <= i < k ==> KeptBy(ps, n + 1, i) == KeptBy(ps, n, i)
    ensures Select(ps, n + 1, k) == Select(ps, n, k)
    decreases k
  {
    if k > 0 {
      SelectStable(ps, n, k - 1);
    }
  }

  /** Idle records never survive, so they add nothing to the selection. */
  lemma {:induction false} SelectIdle(ps: seq<Position>, n: nat, k: nat, j: nat)
    requires k <= j <= n <= |ps|
    requires forall i :: k <= i < j ==> Idle(ps, i)
    ensures Select(ps, n, j) == Select(ps, n, k)
    decreases j
  {
    if j > k {
      assert Idle(ps, j - 1) && !KeptBy(ps, n, j - 1);
      SelectIdle(ps, n, k, j - 1);
    }
  }

  /** When record `n` continues the direction of the last stop `l`, `l` survives
      the first `n` records but not the first `n + 1`, and `n` takes its place. */
  lemma MergeKept(ps: seq<Position>, n: nat, l: nat)
    requires n < |ps| && LastStop(ps, n) == Some(l)
    requires !IsArc(ps[l]) && !IsArc(ps[n]) && SameDirection(Step(ps, l), Step(ps, n))
    ensures KeptBy(ps, n, l) && !KeptBy(ps, n + 1, l) && KeptBy(ps, n + 1, n)
    ensures Follow(ps, n, l + 1) == None
  {
    LastStopIsOpen(ps, n);
    FollowExtend(ps, n, l + 1);
  }

  lemma MergeSelects(ps: seq<Position>, n: nat, l: nat)
    requires n < |ps| && l < n && Follow(ps, n, l + 1) == None
    requires KeptBy(ps, n, l) && !KeptBy(ps, n + 1, l) && KeptBy(ps, n + 1, n)
    requires forall i :: 0 <= i < l ==> KeptBy(ps, n + 1, i) == KeptBy(ps, n, i)
    ensures Select(ps, n, n) == Select(ps, n, l) + [ps[l]]
    ensures Select(ps, n + 1, n + 1) == Select(ps, n, l) + [ps[n]]
  {
    SelectIdle(ps, n, l + 1, n);
    SelectIdle(ps, n + 1, l + 1, n);
    SelectStable(ps, n, l);
  }

  /** The scan keeps exactly the described records. What the corrected scan keeps true after `n` records: its output is the
      described selection; a direction is recorded exactly when the last stop
      is a move; and that move runs in the recorded direction, or is the move
      that recorded it. */
  predicate Tracks(ps: seq<Position>, n: nat, st: Collapse)
    requires n <= |ps|
  {
    && Valid(st) && st.cursor == Prev(ps, n)
    && st.out == Select(ps, n, n)
    && (st.dir.Some? <==> LastStop(ps, n).Some? && !IsArc(ps[LastStop(ps, n).value]))
    && (st.dir.Some? ==>
          var d := Step(ps, LastStop(ps, n).value);
          st.dir.value == d || SameDirection(st.dir.value, d))
  }

  lemma TracksArc(ps: seq<Position>, n: nat, st: Collapse)
    requires n < |ps| && Tracks(ps, n, st) && IsArc(ps[n])
    ensures Tracks(ps, n + 1, Apply(st, ps[n], PassThrough, true))
  {
    forall i | 0 <= i < n
      ensures KeptBy(ps, n + 1, i) == KeptBy(ps, n, i)
    {
      KeptStable(ps, n, i);
    }
    SelectStable(ps, n, n);
  }

  lemma TracksIdle(ps: seq<Position>, n: nat, st: Collapse)
    requires n < |ps| && Tracks(ps, n, st) && Idle(ps, n)
    ensures Tracks(ps, n + 1, Apply(st, ps[n], Skip, true))
  {
    forall i | 0 <= i < n
      ensures KeptBy(ps, n + 1, i) == KeptBy(ps, n, i)
    {
      KeptStable(ps, n, i);
    }
    SelectStable(ps, n, n);
  }

  /** The last stop `l` and the new move run the same way. */
  lemma RunContinues(d: Point, l: Point, m: Point)
    requires d == l || SameDirection(d, l)
    requires SameDirection(d, m)
    ensures SameDirection(l, m)
  {
    if d != l {
      SameDirectionSymmetric(d, l);
      SameDirectionTransitive(l, d, m);
    }
  }

  lemma TracksMerge(ps: seq<Position>, n: nat, st: Collapse)
    requires n < |ps| && Tracks(ps, n, st)
    requires !IsArc(ps[n]) && st.dir.Some? && SameDirection(st.dir.value, Step(ps, n))
    ensures Tracks(ps, n + 1, Apply(st, ps[n], Merge, true))
  {
    var l := LastStop(ps, n).value;
    RunContinues(st.dir.value, Step(ps, l), Step(ps, n));
    MergeKept(ps, n, l);
    forall i | 0 <= i < l
      ensures KeptBy(ps, n + 1, i) == KeptBy(ps, n, i)
    {
      KeptStable(ps, n, i);
    }
    MergeSelects(ps, n, l);
  }

  lemma TracksAppend(ps: seq<Position>, n: nat, st: Collapse)
    requires n < |ps| && Tracks(ps, n, st)
    requires !IsArc(ps[n]) && Step(ps, n) != Origin
    requires !(st.dir.Some? && SameDirection(st.dir.value, Step(ps, n)))
    ensures Tracks(ps, n + 1, Apply(st, ps[n], Append, true))
  {
    forall i | 0 <= i < n
      ensures KeptBy(ps, n + 1, i) == KeptBy(ps, n, i)
    {
      KeptStable(ps, n, i);
      if KeptBy(ps, n + 1, i) != KeptBy(ps, n, i) && st.dir.Some? && st.dir.value != Step(ps, i) {
        SameDirectionTransitive(st.dir.value, Step(ps, i), Step(ps, n));
      }
    }
    SelectStable(ps, n, n);
  }

  lemma TracksStep(ps: seq<Position>, n: nat, st: Collapse)
    requires n < |ps| && Tracks(ps, n, st)
    ensures Tracks(ps, n + 1, CollapseStep(st, ps[n], true))
  {
    var m := ps[n];
    ClassifyFits(st, m);
    assert Displacement(st.cursor, At(m)) == Step(ps, n);
    var a := Classify(st, m);
    match a
    case PassThrough => TracksArc(ps, n, st);
    case Skip => TracksIdle(ps, n, st);
    case Merge => TracksMerge(ps, n, st);
    case Append => TracksAppend(ps, n, st);
  }

  lemma {:induction false} CollapseTracks(ps: seq<Position>, n: nat)
    requires n <= |ps|
    ensures Tracks(ps, n, CollapseUpTo(ps, n, true))
    decreases n
  {
    if n > 0 {
      CollapseTracks(ps, n - 1);
      TracksStep(ps, n - 1, CollapseUpTo(ps, n - 1, true));
    }
  }

  /** The corrected pass keeps exactly the records `KeptBy` describes, in order. */
  lemma KeepingArcsIsKept(ps: seq<Position>)
    ensures OptBogusMovesKeepingArcs(ps) == Kept(ps)
  {
    CollapseTracks(ps, |ps|);
  }

  /** Without arcs, the pass as written and the corrected pass scan alike. */
  lemma {:induction false} NoArcsSameScan(ps: seq<Position>, n: nat)
    requires n <= |ps|
    requires forall i :: 0 <= i < |ps| ==> !IsArc(ps[i])
    ensures CollapseUpTo(ps, n, false) == CollapseUpTo(ps, n, true)
    decreases n
  {
    if n > 0 {
      NoArcsSameScan(ps, n - 1);
      MoveStepSame(CollapseUpTo(ps, n - 1, true), ps[n - 1]);
    }
  }

  /** Both behaviours take the same step on a record that is not an arc. */
  lemma MoveStepSame(st: Collapse, m: Position)
    requires Valid(st) && !IsArc(m)
    ensures CollapseStep(st, m, false) == CollapseStep(st, m, true)
  {
    ClassifyFits(st, m);
  }

  /** On input without arcs, the pass as written keeps exactly the described records. */
  lemma OptBogusMovesIsKept(ps: seq<Position>)
    requires forall i :: 0 <= i < |ps| ==> !IsArc(ps[i])
    ensures OptBogusMoves(ps) == Kept(ps)
  {
    NoArcsSameScan(ps, |ps|);
    KeepingArcsIsKept(ps);
  }

  /** A record the description keeps is in the selection. */
  lemma {:induction false} SelectHas(ps: seq<Position>, n: nat, k: nat, i: nat)
    requires i < k <= n <= |ps| && KeptBy(ps, n, i)
    ensures ps[i] in Select(ps, n, k)
    decreases k
  {
    if i < k - 1 {
      SelectHas(ps, n, k - 1, i);
    }
  }

  /** A move that goes somewhere and is followed by a move in another direction
      survives the pass. */
  lemma DirectionChangeSurvives(ps: seq<Position>, i: nat)
    requires i + 1 < |ps|
    requires !IsArc(ps[i]) && !IsArc(ps[i + 1])
    requires Step(ps, i) != Origin && Step(ps, i + 1) != Origin
    requires !SameDirection(Step(ps, i), Step(ps, i + 1))
    ensures ps[i] in OptBogusMovesKeepingArcs(ps)
  {
    assert Follow(ps, |ps|, i + 1) == Some(i + 1);
    SelectHas(ps, |ps|, |ps|, i);
    KeepingArcsIsKept(ps);
  }

  /** A move followed by one that continues its direction does not survive on
      its own: the pass keeps the later one in its place. */
  lemma ContinuedMoveMerged(ps: seq<Position>, i: nat)
    requires i + 1 < |ps|
    requires !IsArc(ps[i]) && !IsArc(ps[i + 1])
    requires SameDirection(Step(ps, i), Step(ps, i + 1))
    ensures !KeptBy(ps, |ps|, i)
  {
    assert Follow(ps, |ps|, i + 1) == Some(i + 1);
  }

  /** The last record survives unless it is a move that goes nowhere. */
  lemma LastSurvives(ps: seq<Position>)
    requires |ps| > 0 && !Idle(ps, |ps| - 1)
    ensures OptBogusMovesKeepingArcs(ps) == Select(ps, |ps|, |ps| - 1) + [ps[|ps| - 1]]
  {
    KeepingArcsIsKept(ps);
  }
}

=== FILE: bogus_moves.dfy ===
/** OptBogusMoves: drops moves that go nowhere and merges consecutive moves
    that continue in the same direction into one. */
module BogusMoves {
  import opened Toolpath

  function Displacement(from: Point, to: Point): Point {
    Point(to.x - from.x, to.y - from.y, to.z - from.z)
  }

  function Cross(u: Point, v: Point): Point {
    Point(u.y * v.z - u.z * v.y, u.z * v.x - u.x * v.z, u.x * v.y - u.y * v.x)
  }

  function Dot(u: Point, v: Point): real {
    u.x * v.x + u.y * v.y + u.z * v.z
  }

  /** Two non-zero displacements have the same unit vector: they are parallel
      and point the same way. */
  predicate SameDirection(u: Point, v: Point) {
    u != Origin && v != Origin && Cross(u, v) == Origin && Dot(u, v) > 0.0
  }

  /** A move the pass does not reason about geometrically (arcs and the like). */
  predicate IsArc(p: Position) {
    p.state.moveMode != Rapid && p.state.moveMode != Linear
  }

  /** The arcs of `s`, in order. */
  function Arcs(s: seq<Position>): seq<Position> {
    if |s| == 0 then []
    else Arcs(s[..|s| - 1]) + (if IsArc(s[|s| - 1]) then [s[|s| - 1]] else [])
  }

  lemma ArcsAppend(s: seq<Position>, m: Position)
    ensures Arcs(s + [m]) == Arcs(s) + (if IsArc(m) then [m] else [])
  {
    assert (s + [m])[..|s|] == s;
  }

  /** Replacing a last record that is not an arc by another that is not one
      keeps the arcs. */
  lemma ArcsMerge(s: seq<Position>, m: Position)
    requires |s| > 0 && !IsArc(s[|s| - 1]) && !IsArc(m)
    ensures Arcs(s[..|s| - 1] + [m]) == Arcs(s)
  {
    ArcsAppend(s[..|s| - 1], m);
  }

  /** Where the tool stands after running `s` from the origin. */
  function EndPoint(s: seq<Position>): Point {
    Prev(s, |s|)
  }

  /** The scan state: the last input position seen, the direction of the last
      move appended (none before the first one), and the output so far. */
  datatype Collapse = Collapse(cursor: Point, dir: Option<Point>, out: seq<Position>)

  predicate Valid(st: Collapse) {
    st.dir.Some? ==> |st.out| > 0 && st.dir.value != Origin
  }

  /** What one step does with the output. */
  datatype Action = PassThrough | Skip | Merge | Append

  /** An arc passes through; a move that goes nowhere is skipped; a move in
      the recorded direction merges into the last output record; any other
      move is appended and its direction recorded. */
  function Classify(st: Collapse, m: Position): Action {
    var d := Displacement(st.cursor, At(m));
    if IsArc(m) then PassThrough
    else if d == Origin then Skip
    else if st.dir.Some? && SameDirection(st.dir.value, d) then Merge
    else Append
  }

  /** What an action does to the scan state. `forgetAtArcs` chooses the
      corrected behaviour in which passing an arc through also forgets the last
      direction; the pass as written keeps it. */
  function Apply(st: Collapse, m: Position, a: Action, forgetAtArcs: bool): (st': Collapse)
    requires Valid(st)
    requires a == Merge ==> st.dir.Some?
    requires a == Append ==> Displacement(st.cursor, At(m)) != Origin
    ensures Valid(st')
    ensures st'.cursor == At(m)
    ensures |st'.out| <= |st.out| + 1
  {
    match a
    case PassThrough => Collapse(At(m), if forgetAtArcs then None else st.dir, st.out + [m])
    case Skip => Collapse(At(m), st.dir, st.out)
    case Merge => Collapse(At(m), st.dir, st.out[..|st.out| - 1] + [m])
    case Append => Collapse(At(m), Some(Displacement(st.cursor, At(m))), st.out + [m])
  }

  /** The action chosen for `m` meets what `Apply` needs, and it passes `m`
      through exactly when `m` is an arc. */
  lemma ClassifyFits(st: Collapse, m: Position)
    requires Valid(st)
    ensures var a := Classify(st, m);
      && (a == Merge ==> st.dir.Some?)
      && (a == Append ==> Displacement(st.cursor, At(m)) != Origin)
      && (a == Skip ==> At(m) == st.cursor)
      && (a == PassThrough <==> IsArc(m))
  {
  }

  /** One step of the scan. An arc is passed through; as written the recorded
      direction survives it, corrected it is forgotten. A move that goes
      nowhere changes neither the output nor the direction. A move in the
      recorded direction replaces the last output record, and the direction
      stays. Any other move is appended and its direction recorded. */
  function CollapseStep(st: Collapse, m: Position, forgetAtArcs: bool): (st': Collapse)
    requires Valid(st)
    ensures Valid(st')
    ensures st'.cursor == At(m)
    ensures |st'.out| <= |st.out| + 1
    ensures IsArc(m) ==>
      st'.out == st.out + [m] && st'.dir == (if forgetAtArcs then None else st.dir)
    ensures !IsArc(m) && At(m) == st.cursor ==> st'.out == st.out && st'.dir == st.dir
    ensures var d := Displacement(st.cursor, At(m));
      !IsArc(m) && st.dir.Some? && SameDirection(st.dir.value, d) ==>
        |st.out| > 0 && st'.out == st.out[..|st.out| - 1] + [m] && st'.dir == st.dir
    ensures var d := Displacement(st.cursor, At(m));
      !IsArc(m) && d != Origin && !(st.dir.Some? && SameDirection(st.dir.value, d)) ==>
        st'.out == st.out + [m] && st'.dir == Some(d)
  {
    ClassifyFits(st, m);
    Apply(st, m, Classify(st, m), forgetAtArcs)
  }

  /** The scan over the first `n` records. */
  function CollapseUpTo(ps: seq<Position>, n: nat, forgetAtArcs: bool): (st: Collapse)
    requires n <= |ps|
    ensures Valid(st)
    ensures st.cursor == Prev(ps, n)
    ensures |st.out| <= n
    decreases n
  {
    if n == 0 then Collapse(Origin, None, [])
    else CollapseStep(CollapseUpTo(ps, n - 1, forgetAtArcs), ps[n - 1], forgetAtArcs)
  }

  /** What the scan keeps true: its output is a subsequence of the records
      seen, it ends where they end, and (corrected) it holds all their arcs. */
  lemma {:induction false} CollapseInvariant(ps: seq<Position>, n: nat, forgetAtArcs: bool)
    requires n <= |ps|
    ensures var st := CollapseUpTo(ps, n, forgetAtArcs);
      && IsSubsequence(st.out, ps[..n])
      && EndPoint(st.out) == Prev(ps, n)
      && (forgetAtArcs ==> (st.dir.Some? ==> !IsArc(st.out[|st.out| - 1])))
      && (forgetAtArcs ==> Arcs(st.out) == Arcs(ps[..n]))
    decreases n
  {
    if n > 0 {
      CollapseInvariant(ps, n - 1, forgetAtArcs);
      assert ps[..n] == ps[..n - 1] + [ps[n - 1]];
      var st := CollapseUpTo(ps, n - 1, forgetAtArcs);
      CollapseStepSubsequence(st, ps[n - 1], ps[..n - 1], forgetAtArcs);
      if forgetAtArcs {
        CollapseStepArcs(st, ps[n - 1], ps[..n - 1]);
      }
    }
  }

  /** One step keeps the output a subsequence of the records seen, ending where they end. */
  lemma CollapseStepSubsequence(st: Collapse, m: Position, seen: seq<Position>, forgetAtArcs: bool)
    requires Valid(st)
    requires IsSubsequence(st.out, seen)
    requires EndPoint(st.out) == st.cursor
    ensures IsSubsequence(CollapseStep(st, m, forgetAtArcs).out, seen + [m])
    ensures EndPoint(CollapseStep(st, m, forgetAtArcs).out) == At(m)
  {
    ClassifyFits(st, m);
    ApplySubsequence(st, m, Classify(st, m), seen, forgetAtArcs);
  }

  lemma ApplySubsequence(st: Collapse, m: Position, a: Action, seen: seq<Position>, forgetAtArcs: bool)
    requires Valid(st)
    requires a == Merge ==> st.dir.Some?
    requires a == Append ==> Displacement(st.cursor, At(m)) != Origin
    requires a == Skip ==> At(m) == st.cursor
    requires IsSubsequence(st.out, seen)
    requires EndPoint(st.out) == st.cursor
    ensures IsSubsequence(Apply(st, m, a, forgetAtArcs).out, seen + [m])
    ensures EndPoint(Apply(st, m, a, forgetAtArcs).out) == At(m)
  {
    if a == PassThrough || a == Append {
      SubsequenceAppend(st.out, seen, m);
    } else if a == Skip {
      SubsequenceExtend(st.out, seen, m);
    } else {
      SubsequenceDropLast(st.out, seen);
      SubsequenceAppend(st.out[..|st.out| - 1], seen, m);
    }
  }

  /** Corrected, one step keeps every arc seen and never leaves a direction
      recorded over an arc. */
  lemma CollapseStepArcs(st: Collapse, m: Position, seen: seq<Position>)
    requires Valid(st)
    requires st.dir.Some? ==> !IsArc(st.out[|st.out| - 1])
    requires Arcs(st.out) == Arcs(seen)
    ensures var st' := CollapseStep(st, m, true);
      && (st'.dir.Some? ==> !IsArc(st'.out[|st'.out| - 1]))
      && Arcs(st'.out) == Arcs(seen + [m])
  {
    ClassifyFits(st, m);
    ApplyArcs(st, m, Classify(st, m), seen);
  }

  lemma ApplyArcs(st: Collapse, m: Position, a: Action, seen: seq<Position>)
    requires Valid(st)
    requires a == Merge ==> st.dir.Some?
    requires a == Append ==> Displacement(st.cursor, At(m)) != Origin
    requires a == PassThrough <==> IsArc(m)
    requires st.dir.Some? ==> !IsArc(st.out[|st.out| - 1])
    requires Arcs(st.out) == Arcs(seen)
    ensures var st' := Apply(st, m, a, true);
      && (st'.dir.Some? ==> !IsArc(st'.out[|st'.out| - 1]))
      && Arcs(st'.out) == Arcs(seen + [m])
  {
    ArcsAppend(seen, m);
    if a == PassThrough || a == Append {
      ArcsAppend(st.out, m);
    } else if a == Merge {
      ArcsMerge(st.out, m);
    }
  }

  /** The pass as written. */
  function OptBogusMoves(ps: seq<Position>): (r: seq<Position>)
    ensures IsSubsequence(r, ps)
    ensures |r| <= |ps|
    ensures EndPoint(r) == EndPoint(ps)
  {
    var r := CollapseUpTo(ps, |ps|, false).out;
    CollapseInvariant(ps, |ps|, false);
    assert ps[..|ps|] == ps;
    SubsequenceShorter(r, ps);
    r
  }

  /** The pass with arcs forgetting the last direction: besides the above, every
      arc of the input survives, in order. */
  function OptBogusMovesKeepingArcs(ps: seq<Position>): (r: seq<Position>)
    ensures IsSubsequence(r, ps)
    ensures |r| <= |ps|
    ensures EndPoint(r) == EndPoint(ps)
    ensures Arcs(r) == Arcs(ps)
  {
    var r := CollapseUpTo(ps, |ps|, true).out;
    CollapseInvariant(ps, |ps|, true);
    assert ps[..|ps|] == ps;
    SubsequenceShorter(r, ps);
    r
  }

  /** The three kinds of step that change the output, as state transitions. */
  lemma PassArcStep(st: Collapse, m: Position, forgetAtArcs: bool)
    requires Valid(st) && IsArc(m)
    ensures CollapseStep(st, m, forgetAtArcs) == Collapse(At(m), if forgetAtArcs then None else st.dir, st.out + [m])
  {
  }

  lemma AppendStep(st: Collapse, m: Position, forgetAtArcs: bool, d: Point)
    requires Valid(st) && !IsArc(m) && d == Displacement(st.cursor, At(m)) && d != Origin
    requires st.dir.None?
    ensures CollapseStep(st, m, forgetAtArcs) == Collapse(At(m), Some(d), st.out + [m])
  {
  }

  lemma MergeStep(st: Collapse, m: Position, forgetAtArcs: bool)
    requires Valid(st) && !IsArc(m) && st.dir.Some?
    requires SameDirection(st.dir.value, Displacement(st.cursor, At(m)))
    ensures CollapseStep(st, m, forgetAtArcs) == Collapse(At(m), st.dir, st.out[..|st.out| - 1] + [m])
  {
  }

  lemma ScanTo(ps: seq<Position>, n: nat, forgetAtArcs: bool, a: Collapse, b: Collapse)
    requires 0 < n <= |ps|
    requires CollapseUpTo(ps, n - 1, forgetAtArcs) == a
    requires CollapseStep(a, ps[n - 1], forgetAtArcs) == b
    ensures CollapseUpTo(ps, n, forgetAtArcs) == b
  {
  }

  lemma LastOfThree<T>(s: seq<T>)
    requires |s| == 3
    ensures s[..2] + [s[2]] == s
  {
  }

  /** A linear move to (1,0,0), an arc to (2,5,0), and a linear move on to
      (3,5,0), which continues the direction of the first move. */
  function ArcProgram(line: State, arc: State): seq<Position> {
    [Position(1.0, 0.0, 0.0, line), Position(2.0, 5.0, 0.0, arc), Position(3.0, 5.0, 0.0, line)]
  }

  /** The scan of the arc program after the move and the arc, either way. */
  lemma ArcFirstSteps(line: State, arc: State, forgetAtArcs: bool)
    requires line.moveMode == Linear && arc.moveMode == Other
    ensures var ps := ArcProgram(line, arc);
      CollapseUpTo(ps, |ps| - 1, forgetAtArcs)
      == Collapse(At(ps[1]), if forgetAtArcs then None else Some(Point(1.0, 0.0, 0.0)), ps[..2])
  {
    var ps := ArcProgram(line, arc);
    var e := Point(1.0, 0.0, 0.0);
    var s0 := Collapse(Origin, None, []);
    var s1 := Collapse(At(ps[0]), Some(e), [ps[0]]);
    AppendStep(s0, ps[0], forgetAtArcs, e);
    assert s0.out + [ps[0]] == [ps[0]];
    ScanTo(ps, |ps| - 2, forgetAtArcs, s0, s1);
    PassArcStep(s1, ps[1], forgetAtArcs);
    assert s1.out + [ps[1]] == ps[..2];
    ScanTo(ps, |ps| - 1, forgetAtArcs, s1, Collapse(At(ps[1]), if forgetAtArcs then None else Some(e), ps[..2]));
  }

  lemma ArcScanAsWritten(line: State, arc: State)
    requires line.moveMode == Linear && arc.moveMode == Other
    ensures var ps := ArcProgram(line, arc);
      CollapseUpTo(ps, |ps|, false).out == [ps[0], ps[2]]
  {
    var ps := ArcProgram(line, arc);
    var e := Point(1.0, 0.0, 0.0);
    ArcFirstSteps(line, arc, false);
    var s2 := Collapse(At(ps[1]), Some(e), ps[..2]);
    assert Displacement(At(ps[1]), At(ps[2])) == e;
    assert SameDirection(e, e);
    MergeStep(s2, ps[2], false);
    assert s2.out[..1] + [ps[2]] == [ps[0], ps[2]];
    ScanTo(ps, |ps|, false, s2, Collapse(At(ps[2]), Some(e), [ps[0], ps[2]]));
  }

  lemma ArcScanCorrected(line: State, arc: State)
    requires line.moveMode == Linear && arc.moveMode == Other
    ensures var ps := ArcProgram(line, arc);
      CollapseUpTo(ps, |ps|, true).out == ps
  {
    var ps := ArcProgram(line, arc);
    var e := Point(1.0, 0.0, 0.0);
    ArcFirstSteps(line, arc, true);
    var s2 := Collapse(At(ps[1]), None, ps[..2]);
    assert Displacement(At(ps[1]), At(ps[2])) == e;
    AppendStep(s2, ps[2], true, e);
    LastOfThree(ps);
    ScanTo(ps, |ps|, true, s2, Collapse(At(ps[2]), Some(e), ps));
  }

  lemma ArcsOfProgram(line: State, arc: State)
    requires line.moveMode == Linear && arc.moveMode == Other
    ensures var ps := ArcProgram(line, arc);
      Arcs(ps) == [ps[1]] && Arcs([ps[0], ps[2]]) == []
  {
    var ps := ArcProgram(line, arc);
    ArcsAppend([], ps[0]);
    assert [] + [ps[0]] == [ps[0]];
    ArcsAppend([ps[0]], ps[1]);
    assert [ps[0]] + [ps[1]] == ps[..2];
    ArcsAppend(ps[..2], ps[2]);
    assert ps[..2] + [ps[2]] == ps;
    ArcsAppend([ps[0]], ps[2]);
  }

  lemma ArcLost(line: State, arc: State)
    requires line.moveMode == Linear && arc.moveMode == Other
    ensures var ps := ArcProgram(line, arc);
      OptBogusMoves(ps) == [ps[0], ps[2]] && Arcs(OptBogusMoves(ps)) != Arcs(ps)
  {
    var ps := ArcProgram(line, arc);
    ArcScanAsWritten(line, arc);
    var r := OptBogusMoves(ps);
    assert r == [ps[0], ps[2]];
    ArcsOfProgram(line, arc);
    assert Arcs(r) == [] && Arcs(ps) == [ps[1]];
  }

  lemma ArcKept(line: State, arc: State)
    requires line.moveMode == Linear && arc.moveMode == Other
    ensures var ps := ArcProgram(line, arc); OptBogusMovesKeepingArcs(ps) == ps
  {
    ArcScanCorrected(line, arc);
  }

  /** As written, an arc between two moves in the same direction is overwritten
      by the second move: the output loses the arc. Corrected, the arc stays. */
  lemma ArcOverwritten(line: State, arc: State)
    requires line.moveMode == Linear && arc.moveMode == Other
    ensures var ps := ArcProgram(line, arc);
      && OptBogusMoves(ps) == [ps[0], ps[2]]
      && Arcs(OptBogusMoves(ps)) != Arcs(ps)
      && OptBogusMovesKeepingArcs(ps) == ps
  {
    ArcLost(line, arc);
    ArcKept(line, arc);
  }

  /** Two moves along the x axis leave only the second one. */
  lemma CollinearPrefix(ps: seq<Position>)
    requires |ps| >= 2
    requires At(ps[0]) == Point(1.0, 0.0, 0.0) && At(ps[1]) == Point(2.0, 0.0, 0.0)
    requires ps[0].state.moveMode == Linear && ps[1].state.moveMode == Linear
    ensures CollapseUpTo(ps, 2, false) == Collapse(At(ps[1]), Some(Point(1.0, 0.0, 0.0)), [ps[1]])
  {
    var e := Point(1.0, 0.0, 0.0);
    assert Displacement(Origin, At(ps[0])) == e;
    assert Displacement(At(ps[0]), At(ps[1])) == e;
    assert SameDirection(e, e);
    var st1 := CollapseStep(Collapse(Origin, None, []), ps[0], false);
    assert st1 == Collapse(At(ps[0]), Some(e), [ps[0]]);
    assert CollapseUpTo(ps, 1, false) == st1;
  }

  /** Three moves along the same line become one; a move that goes nowhere is dropped. */
  lemma CollinearExample(p0: Position, p1: Position, p2: Position, p3: Position)
    requires At(p0) == Point(1.0, 0.0, 0.0) && At(p1) == Point(2.0, 0.0, 0.0)
    requires At(p2) == Point(2.0, 0.0, 0.0) && At(p3) == Point(3.0, 0.0, 0.0)
    requires p0.state.moveMode == Linear && p1.state.moveMode == Linear
    requires p2.state.moveMode == Linear && p3.state.moveMode == Linear
    ensures OptBogusMoves([p0, p1, p2, p3]) == [p3]
  {
    var ps := [p0, p1, p2, p3];
    var e := Point(1.0, 0.0, 0.0);
    CollinearPrefix(ps);
    var st2 := CollapseUpTo(ps, 2, false);
    assert Displacement(At(p1), At(p2)) == Origin;
    assert Displacement(At(p2), At(p3)) == e;
    assert SameDirection(e, e);
    var st3 := CollapseStep(st2, p2, false);
    assert st3 == Collapse(At(p2), Some(e), [p1]);
    assert CollapseUpTo(ps, 3, false) == st3;
    assert CollapseUpTo(ps, 4, false).out == [p3];
  }
}

=== FILE: drill_speed.dfy ===
/** OptDrillSpeed: a plunge into a hole that has already been drilled travels
    at rapid speed down to the deepest depth recorded there. */
module DrillSpeed {
  import opened Toolpath

  /** Record `i` continues a plunge: a linear move at the x,y of the record
      before it (the origin for the first record), to a lower z. */
  predicate Plunges(ps: seq<Position>, i: nat)
    requires i < |ps|
  {
    var prev := Prev(ps, i);
    ps[i].state.moveMode == Linear && SameXY(ps[i], prev) && ps[i].z < prev.z
  }

  /** The drill stack when the scan reaches record `i`: every earlier plunge, in order. */
  function History(ps: seq<Position>, i: nat): seq<Position>
    requires i <= |ps|
    decreases i
  {
    if i == 0 then []
    else History(ps, i - 1) + (if Plunges(ps, i - 1) then [ps[i - 1]] else [])
  }

  /** The drill stack holds exactly the earlier plunges. */
  lemma {:induction false} HistoryMembers(ps: seq<Position>, i: nat)
    requires i <= |ps|
    ensures forall p :: p in History(ps, i) <==> exists j :: 0 <= j < i && Plunges(ps, j) && ps[j] == p
    decreases i
  {
    if i > 0 {
      HistoryMembers(ps, i - 1);
    }
  }

  datatype Depth = Depth(found: bool, depth: real)

  /** The scan of the drill stack for (x, y): the depth starts at 0 and only a
      strictly lower z at the same x,y replaces it. */
  function RecordedDepth(h: seq<Position>, x: real, y: real): (d: Depth)
    ensures d.depth <= 0.0
    ensures !d.found ==> d.depth == 0.0
    ensures d.found <==> exists p :: p in h && p.x == x && p.y == y && p.z < 0.0
    ensures forall p :: p in h && p.x == x && p.y == y ==> d.depth <= p.z
    ensures d.found ==> exists p :: p in h && p.x == x && p.y == y && p.z == d.depth
    decreases |h|
  {
    if |h| == 0 then Depth(false, 0.0)
    else
      var d := RecordedDepth(h[..|h| - 1], x, y);
      var m := h[|h| - 1];
      assert h == h[..|h| - 1] + [m];
      if m.x == x && m.y == y && m.z < d.depth then Depth(true, m.z) else d
  }

  /** Some earlier plunge at the x,y of record `i` reached below z = 0. */
  ghost predicate Drilled(ps: seq<Position>, i: nat)
    requires i < |ps|
  {
    exists j :: 0 <= j < i && Plunges(ps, j) && ps[j].x == ps[i].x && ps[j].y == ps[i].y && ps[j].z < 0.0
  }

  /** `d` is the lowest z reached by an earlier plunge at the x,y of record `i`. */
  ghost predicate IsDeepest(ps: seq<Position>, i: nat, d: real)
    requires i < |ps|
  {
    && (exists j :: 0 <= j < i && Plunges(ps, j) && ps[j].x == ps[i].x && ps[j].y == ps[i].y && ps[j].z == d)
    && (forall j :: 0 <= j < i && Plunges(ps, j) && ps[j].x == ps[i].x && ps[j].y == ps[i].y ==> d <= ps[j].z)
  }

  /** What the pass emits for record `i`: the record itself, the record promoted
      to rapid, or a rapid move to the recorded depth followed by the record. */
  function Chunk(ps: seq<Position>, i: nat): (c: seq<Position>)
    requires i < |ps|
    ensures 1 <= |c| <= 2
    ensures At(c[|c| - 1]) == At(ps[i])
    ensures c[|c| - 1] == ps[i] || c[|c| - 1] == WithMode(ps[i], Rapid)
  {
    if !Plunges(ps, i) then [ps[i]]
    else
      var d := RecordedDepth(History(ps, i), ps[i].x, ps[i].y);
      if !d.found then [ps[i]]
      else if ps[i].z >= d.depth then [WithMode(ps[i], Rapid)]
      else [WithMode(ps[i].(z := d.depth), Rapid), ps[i]]
  }

  /** The memoisation rule of the pass, stated against the records themselves. */
  lemma ChunkRule(ps: seq<Position>, i: nat)
    requires i < |ps|
    ensures !Plunges(ps, i) ==> Chunk(ps, i) == [ps[i]]
    ensures Plunges(ps, i) && !Drilled(ps, i) ==> Chunk(ps, i) == [ps[i]]
    ensures Plunges(ps, i) && Drilled(ps, i) ==>
      exists d :: d < 0.0 && IsDeepest(ps, i, d) &&
        Chunk(ps, i) == (if ps[i].z >= d then [WithMode(ps[i], Rapid)]
                         else [WithMode(ps[i].(z := d), Rapid), ps[i]])
  {
    if Plunges(ps, i) {
      var h := History(ps, i);
      HistoryMembers(ps, i);
      var d := RecordedDepth(h, ps[i].x, ps[i].y);
      if Drilled(ps, i) {
        var j :| 0 <= j < i && Plunges(ps, j) && ps[j].x == ps[i].x && ps[j].y == ps[i].y && ps[j].z < 0.0;
        assert ps[j] in h;
        assert d.found;
        var p :| p in h && p.x == ps[i].x && p.y == ps[i].y && p.z == d.depth;
        var k :| 0 <= k < i && Plunges(ps, k) && ps[k] == p;
        assert d.depth < 0.0;
        forall j' | 0 <= j' < i && Plunges(ps, j') && ps[j'].x == ps[i].x && ps[j'].y == ps[i].y
          ensures d.depth <= ps[j'].z
        {
          assert ps[j'] in h;
        }
        assert IsDeepest(ps, i, d.depth);
      }
    }
  }

  /** The chunks of the first `n` records, in input order. */
  function Chunks(ps: seq<Position>, n: nat): (cs: seq<seq<Position>>)
    requires n <= |ps|
    ensures |cs| == n
    ensures forall k :: 0 <= k < n ==> 1 <= |cs[k]| <= 2
    decreases n
  {
    if n == 0 then [] else Chunks(ps, n - 1) + [Chunk(ps, n - 1)]
  }

  lemma {:induction false} ChunksAt(ps: seq<Position>, n: nat, i: nat)
    requires i < n <= |ps|
    ensures Chunks(ps, n)[i] == Chunk(ps, i)
    decreases n
  {
    var c := Chunk(ps, n - 1);
    var cs := Chunks(ps, n - 1);
    assert Chunks(ps, n) == cs + [c];
    if i < n - 1 {
      ChunksAt(ps, n - 1, i);
      assert (cs + [c])[i] == cs[i];
    }
  }

  /** The pass: every record replaced by its chunk. */
  function OptDrillSpeed(ps: seq<Position>): (r: seq<Position>)
    ensures |ps| <= |r| <= 2 * |ps|
  {
    var cs := Chunks(ps, |ps|);
    JoinBounds(cs, 1, 2);
    Join(cs)
  }

  /** Where the chunk of record `i` starts in the output. */
  function Offset(ps: seq<Position>, i: nat): nat
    requires i <= |ps|
  {
    |Join(Chunks(ps, |ps|)[..i])|
  }

  /** The output is the chunks laid end to end: the chunk of record `i` sits
      between `Offset(ps, i)` and `Offset(ps, i + 1)`, so the last element of
      each chunk is the input record (possibly promoted to rapid) in input order,
      and the only other elements are the inserted rapid moves. */
  lemma DrillLayout(ps: seq<Position>, i: nat)
    requires i < |ps|
    ensures Offset(ps, i) + |Chunk(ps, i)| == Offset(ps, i + 1) <= |OptDrillSpeed(ps)|
    ensures OptDrillSpeed(ps)[Offset(ps, i)..Offset(ps, i + 1)] == Chunk(ps, i)
    ensures At(OptDrillSpeed(ps)[Offset(ps, i + 1) - 1]) == At(ps[i])
  {
    var cs := Chunks(ps, |ps|);
    JoinSlot(cs, i);
    ChunksAt(ps, |ps|, i);
    assert OptDrillSpeed(ps) == Join(cs);
  }

  lemma DrillLength(ps: seq<Position>)
    ensures |OptDrillSpeed(ps)| == Offset(ps, |ps|)
  {
    assert Chunks(ps, |ps|)[..|ps|] == Chunks(ps, |ps|);
  }
}

=== FILE: feed_spindle.dfy ===
/** The three field rewrites: LimitFeedrate, FeedrateMultiplier and
    EnforceSpindle. Each touches only the named state fields of every record. */
module FeedSpindle {
  import opened Toolpath

  function WithFeedrate(p: Position, f: real): Position {
    p.(state := p.state.(feedrate := f))
  }

  /** Clamps every feedrate above `feed` down to `feed`. */
  function LimitFeedrate(ps: seq<Position>, feed: real): (r: seq<Position>)
    ensures |r| == |ps|
    ensures forall i :: 0 <= i < |ps| ==> r[i].state.feedrate <= feed
    ensures forall i :: 0 <= i < |ps| && ps[i].state.feedrate > feed ==> r[i].state.feedrate == feed
    ensures forall i :: 0 <= i < |ps| && ps[i].state.feedrate <= feed ==> r[i] == ps[i]
    ensures forall i :: 0 <= i < |ps| ==> r[i] == WithFeedrate(ps[i], r[i].state.feedrate)
  {
    seq(|ps|, i requires 0 <= i < |ps| =>
      if ps[i].state.feedrate > feed then WithFeedrate(ps[i], feed) else ps[i])
  }

  lemma LimitFeedrateIdempotent(ps: seq<Position>, feed: real)
    ensures LimitFeedrate(LimitFeedrate(ps, feed), feed) == LimitFeedrate(ps, feed)
  {
  }

  /** Clamping to `a` and then to `b` is clamping to the smaller of the two. */
  lemma LimitFeedrateCompose(ps: seq<Position>, a: real, b: real)
    ensures LimitFeedrate(LimitFeedrate(ps, a), b) == LimitFeedrate(ps, if a < b then a else b)
  {
    var lhs := LimitFeedrate(LimitFeedrate(ps, a), b);
    var rhs := LimitFeedrate(ps, if a < b then a else b);
    forall i | 0 <= i < |ps|
      ensures lhs[i] == rhs[i]
    {
    }
  }

  /** Multiplies every feedrate by `k`. */
  function FeedrateMultiplier(ps: seq<Position>, k: real): (r: seq<Position>)
    ensures |r| == |ps|
    ensures forall i :: 0 <= i < |ps| ==> r[i].state.feedrate == ps[i].state.feedrate * k
    ensures forall i :: 0 <= i < |ps| ==> r[i] == WithFeedrate(ps[i], r[i].state.feedrate)
  {
    seq(|ps|, i requires 0 <= i < |ps| => Scale(ps[i], k))
  }

  function Scale(p: Position, k: real): Position {
    WithFeedrate(p, p.state.feedrate * k)
  }

  /** Two multipliers in a row act as their product. */
  lemma FeedrateMultiplierCompose(ps: seq<Position>, a: real, b: real)
    ensures FeedrateMultiplier(FeedrateMultiplier(ps, a), b) == FeedrateMultiplier(ps, a * b)
  {
    var lhs := FeedrateMultiplier(FeedrateMultiplier(ps, a), b);
    var rhs := FeedrateMultiplier(ps, a * b);
    forall i | 0 <= i < |ps|
      ensures lhs[i] == rhs[i]
    {
      assert ps[i].state.feedrate * a * b == ps[i].state.feedrate * (a * b);
    }
  }

  /** Applying the multiplier twice is not applying it once: a record with a
      non-zero feedrate changes again unless `k` is 0 or 1. */
  lemma FeedrateMultiplierNotIdempotent(ps: seq<Position>, k: real, i: nat)
    requires i < |ps| && ps[i].state.feedrate != 0.0 && k != 0.0 && k != 1.0
    ensures FeedrateMultiplier(FeedrateMultiplier(ps, k), k) != FeedrateMultiplier(ps, k)
  {
    var once := FeedrateMultiplier(ps, k);
    var twice := FeedrateMultiplier(once, k);
    var f := ps[i].state.feedrate;
    assert once[i].state.feedrate == f * k;
    assert twice[i].state.feedrate == f * k * k;
    assert f * k * k != f * k by {
      assert f * k != 0.0;
      assert f * k * k - f * k == (f * k) * (k - 1.0);
    }
  }

  function WithSpindle(p: Position, enabled: bool, clockwise: bool, speed: real): Position {
    p.(state := p.state.(spindleSpeed := speed, spindleEnabled := enabled, spindleClockwise := clockwise))
  }

  /** Overwrites the spindle speed, enable and direction of every record. */
  function EnforceSpindle(ps: seq<Position>, enabled: bool, clockwise: bool, speed: real): (r: seq<Position>)
    ensures |r| == |ps|
    ensures forall i :: 0 <= i < |ps| ==>
      && r[i].state.spindleEnabled == enabled
      && r[i].state.spindleClockwise == clockwise
      && r[i].state.spindleSpeed == speed
    ensures forall i :: 0 <= i < |ps| ==>
      At(r[i]) == At(ps[i]) && r[i].state.moveMode == ps[i].state.moveMode
      && r[i].state.feedrate == ps[i].state.feedrate
  {
    seq(|ps|, i requires 0 <= i < |ps| => WithSpindle(ps[i], enabled, clockwise, speed))
  }

  lemma EnforceSpindleIdempotent(ps: seq<Position>, enabled: bool, clockwise: bool, speed: real)
    ensures EnforceSpindle(EnforceSpindle(ps, enabled, clockwise, speed), enabled, clockwise, speed)
         == EnforceSpindle(ps, enabled, clockwise, speed)
  {
  }
}

=== FILE: group_order.dfy ===
/** The second phase of OptRouteGrouping: visiting the groups in greedy
    nearest-first order, starting at the origin. */
module GroupOrder {
  import opened Toolpath
  import opened GroupScan

  /** Squared distance from `p` to the first record of a group. The pass
      compares square roots of the same sums, which orders groups the same way. */
  function Dist2(p: Point, q: Position): real {
    var dx := q.x - p.x;
    var dy := q.y - p.y;
    var dz := q.z - p.z;
    dx * dx + dy * dy + dz * dz
  }

  ghost predicate NonEmpty(gs: seq<Group>) {
    forall i :: 0 <= i < |gs| ==> |gs[i]| > 0
  }

  /** The selection loop over the remaining groups: `sel` is the best so far,
      and a later group replaces it only when strictly closer. */
  function Nearest(gs: seq<Group>, cur: Point, idx: nat, sel: nat): (k: nat)
    requires NonEmpty(gs)
    requires sel < idx <= |gs|
    requires forall j :: 0 <= j < idx ==> Dist2(cur, gs[sel][0]) <= Dist2(cur, gs[j][0])
    requires forall j :: 0 <= j < sel ==> Dist2(cur, gs[sel][0]) < Dist2(cur, gs[j][0])
    ensures k < |gs|
    ensures forall j :: 0 <= j < |gs| ==> Dist2(cur, gs[k][0]) <= Dist2(cur, gs[j][0])
    ensures forall j :: 0 <= j < k ==> Dist2(cur, gs[k][0]) < Dist2(cur, gs[j][0])
    decreases |gs| - idx
  {
    if idx == |gs| then sel
    else if Dist2(cur, gs[idx][0]) < Dist2(cur, gs[sel][0]) then Nearest(gs, cur, idx + 1, idx)
    else Nearest(gs, cur, idx + 1, sel)
  }

  /** The group whose first record is closest to `cur`; ties go to the
      earliest group in the remaining order. */
  function SelectNearest(gs: seq<Group>, cur: Point): (k: nat)
    requires NonEmpty(gs) && |gs| > 0
    ensures k < |gs|
    ensures forall j :: 0 <= j < |gs| ==> Dist2(cur, gs[k][0]) <= Dist2(cur, gs[j][0])
    ensures forall j :: 0 <= j < k ==> Dist2(cur, gs[k][0]) < Dist2(cur, gs[j][0])
  {
    Nearest(gs, cur, 1, 0)
  }

  /** `s` without its `k`-th element, the rest in order. */
  function Remove<T>(s: seq<T>, k: nat): (r: seq<T>)
    requires k < |s|
    ensures |r| == |s| - 1
    ensures multiset(r) + multiset{s[k]} == multiset(s)
    ensures forall j :: 0 <= j < |r| ==> r[j] == (if j < k then s[j] else s[j + 1])
  {
    assert s == s[..k] + [s[k]] + s[k + 1..];
    s[..k] + s[k + 1..]
  }

  /** Repeatedly pick the nearest group, move the virtual position to its first
      record and drop it from the remaining ones. */
  function GreedyOrder(gs: seq<Group>, cur: Point): (r: seq<Group>)
    requires NonEmpty(gs)
    ensures |r| == |gs|
    ensures multiset(r) == multiset(gs)
    decreases |gs|
  {
    if |gs| == 0 then []
    else
      var k := SelectNearest(gs, cur);
      var rest := Remove(gs, k);
      assert NonEmpty(rest);
      [gs[k]] + GreedyOrder(rest, At(gs[k][0]))
  }

  /** The virtual position when the `k`-th pick is made. */
  function Before(r: seq<Group>, cur: Point, k: nat): Point
    requires NonEmpty(r) && k < |r|
  {
    if k == 0 then cur else At(r[k - 1][0])
  }

  lemma GreedyNonEmpty(gs: seq<Group>, cur: Point)
    requires NonEmpty(gs)
    ensures NonEmpty(GreedyOrder(gs, cur))
  {
    var r := GreedyOrder(gs, cur);
    forall i | 0 <= i < |r| ensures |r[i]| > 0 {
      assert r[i] in multiset(gs);
    }
  }

  /** Every pick is at least as close to the virtual position as every group
      picked after it. */
  ghost predicate PicksNearest(r: seq<Group>, cur: Point)
    requires NonEmpty(r)
  {
    forall k, j :: 0 <= k <= j < |r| ==>
      Dist2(Before(r, cur, k), r[k][0]) <= Dist2(Before(r, cur, k), r[j][0])
  }

  ghost predicate FirstIsNearest(r: seq<Group>, cur: Point)
    requires NonEmpty(r) && |r| > 0
  {
    forall j :: 0 <= j < |r| ==> Dist2(cur, r[0][0]) <= Dist2(cur, r[j][0])
  }

  /** Each pick is a nearest one among the groups still waiting. */
  lemma {:induction false} GreedyNearestFirst(gs: seq<Group>, cur: Point)
    requires NonEmpty(gs)
    ensures NonEmpty(GreedyOrder(gs, cur))
    ensures PicksNearest(GreedyOrder(gs, cur), cur)
    decreases |gs|
  {
    GreedyNonEmpty(gs, cur);
    if |gs| > 0 {
      var r := GreedyOrder(gs, cur);
      var k0 := SelectNearest(gs, cur);
      var rest := Remove(gs, k0);
      var next := At(gs[k0][0]);
      GreedyNearestFirst(rest, next);
      assert r == [gs[k0]] + GreedyOrder(rest, next);
      FirstPickNearest(gs, cur);
      ConsNearest(r, cur);
    }
  }

  lemma FirstPickNearest(gs: seq<Group>, cur: Point)
    requires NonEmpty(gs) && |gs| > 0
    ensures NonEmpty(GreedyOrder(gs, cur))
    ensures FirstIsNearest(GreedyOrder(gs, cur), cur)
  {
    GreedyNonEmpty(gs, cur);
    var r := GreedyOrder(gs, cur);
    assert r[0] == gs[SelectNearest(gs, cur)];
    forall j | 0 <= j < |r| ensures Dist2(cur, r[0][0]) <= Dist2(cur, r[j][0]) {
      assert r[j] in multiset(gs);
      var i :| 0 <= i < |gs| && gs[i] == r[j];
    }
  }

  lemma ConsNearest(r: seq<Group>, cur: Point)
    requires NonEmpty(r) && |r| > 0
    requires FirstIsNearest(r, cur)
    requires PicksNearest(r[1..], At(r[0][0]))
    ensures PicksNearest(r, cur)
  {
    var tail, next := r[1..], At(r[0][0]);
    forall k, j | 0 <= k <= j < |r|
      ensures Dist2(Before(r, cur, k), r[k][0]) <= Dist2(Before(r, cur, k), r[j][0])
    {
      if k > 0 {
        assert Before(r, cur, k) == Before(tail, next, k - 1);
        assert r[k] == tail[k - 1] && r[j] == tail[j - 1];
      }
    }
  }
}

=== FILE: group_scan.dfy ===
/** The first phase of OptRouteGrouping: one scan that partitions the stack
    into groups of moves below Z0, finds the safety height and the drill
    feedrate, and the checks that abort the pass. */
module GroupScan {
  import opened Toolpath

  /** One drilling/routing operation, regenerated as a unit. */
  type Group = seq<Position>

  /** The scan state: the previous coordinates, the finished groups, the group
      being collected, the highest z so far, the drill feedrate found so far
      (0 for none) and whether a first plunge below Z0 has been seen. */
  datatype Scan = Scan(
    last: Point,
    groups: seq<Group>,
    open: seq<Position>,
    safetyHeight: real,
    drillSpeed: real,
    started: bool)

  const InitScan: Scan := Scan(Origin, [], [], 0.0, 0.0, false)

  /** Record `i` moves z together with x or y. */
  predicate ComplexZ(ps: seq<Position>, i: nat)
    requires i < |ps|
  {
    !Separate(Prev(ps, i), ps[i])
  }

  /** Record `i` enters the material: same x,y, from z >= 0 to z < 0. */
  predicate DownMove(ps: seq<Position>, i: nat)
    requires i < |ps|
  {
    var prev := Prev(ps, i);
    SameXY(ps[i], prev) && prev.z >= 0.0 && ps[i].z < 0.0
  }

  /** Record `i` leaves the material: same x,y, from z < 0 to z >= 0. */
  predicate UpMove(ps: seq<Position>, i: nat)
    requires i < |ps|
  {
    var prev := Prev(ps, i);
    SameXY(ps[i], prev) && prev.z < 0.0 && ps[i].z >= 0.0
  }

  /** Some record among the first `n` enters the material. */
  predicate Plunged(ps: seq<Position>, n: nat)
    requires n <= |ps|
    decreases n
  {
    n > 0 && (Plunged(ps, n - 1) || DownMove(ps, n - 1))
  }

  /** What the scan collects from record `i`: a down move twice, an up move
      never, any other record once a first plunge has been seen before it. */
  function Emitted(ps: seq<Position>, i: nat): seq<Position>
    requires i < |ps|
  {
    if DownMove(ps, i) then [ps[i], ps[i]]
    else if UpMove(ps, i) || !Plunged(ps, i) then []
    else [ps[i]]
  }

  /** What the scan collects from the first `n` records, in input order. */
  function Collected(ps: seq<Position>, n: nat): seq<Position>
    requires n <= |ps|
    decreases n
  {
    if n == 0 then [] else Collected(ps, n - 1) + Emitted(ps, n - 1)
  }

  /** Every collected record is a record of the input. */
  lemma {:induction false} CollectedFromInput(ps: seq<Position>, n: nat)
    requires n <= |ps|
    ensures forall j :: 0 <= j < |Collected(ps, n)| ==> Collected(ps, n)[j] in ps[..n]
    decreases n
  {
    if n > 0 {
      CollectedFromInput(ps, n - 1);
      var c, e := Collected(ps, n - 1), Emitted(ps, n - 1);
      forall j | 0 <= j < |c + e| ensures (c + e)[j] in ps[..n] {
        if j < |c| {
          assert (c + e)[j] == c[j] && c[j] in ps[..n - 1];
          assert ps[..n - 1] <= ps[..n];
        } else {
          assert (c + e)[j] == ps[n - 1] && ps[..n][n - 1] == ps[n - 1];
        }
      }
    }
  }

  /** Record `i` is a down move that offers a drill feedrate. */
  predicate DrillFeed(ps: seq<Position>, i: nat)
    requires i < |ps|
  {
    DownMove(ps, i) && ps[i].state.moveMode == Linear && ps[i].state.feedrate > 0.0
  }

  ghost predicate FirstDrillFeed(ps: seq<Position>, i: nat)
    requires i < |ps|
  {
    DrillFeed(ps, i) && forall k :: 0 <= k < i ==> !DrillFeed(ps, k)
  }

  /** Among the first `n` records a drill feedrate exceeds the first one found. */
  ghost predicate FeedrateRises(ps: seq<Position>, n: nat)
    requires n <= |ps|
  {
    exists i, j :: 0 <= i < j < n && FirstDrillFeed(ps, i) && DrillFeed(ps, j)
      && ps[j].state.feedrate > ps[i].state.feedrate
  }

  ghost predicate HasComplexZ(ps: seq<Position>, n: nat)
    requires n <= |ps|
  {
    exists i :: 0 <= i < n && ComplexZ(ps, i)
  }

  /** The drill feedrate the scan holds after the first `n` records: 0 until
      a drill feedrate is offered, the first one afterwards. */
  function FirstFeed(ps: seq<Position>, n: nat): (f: real)
    requires n <= |ps|
    ensures f >= 0.0
    decreases n
  {
    if n == 0 then 0.0
    else
      var f := FirstFeed(ps, n - 1);
      if f == 0.0 && DrillFeed(ps, n - 1) then ps[n - 1].state.feedrate else f
  }

  /** The drill feedrate held is 0 exactly while no drill feedrate has been
      offered, and otherwise is the first one offered. */
  lemma {:induction false} FirstFeedFound(ps: seq<Position>, n: nat)
    requires n <= |ps|
    ensures FirstFeed(ps, n) == 0.0 <==> forall k :: 0 <= k < n ==> !DrillFeed(ps, k)
    ensures FirstFeed(ps, n) != 0.0 ==>
      exists i :: 0 <= i < n && FirstDrillFeed(ps, i) && FirstFeed(ps, n) == ps[i].state.feedrate
    decreases n
  {
    if n > 0 {
      FirstFeedFound(ps, n - 1);
      if FirstFeed(ps, n - 1) == 0.0 && DrillFeed(ps, n - 1) {
        assert FirstDrillFeed(ps, n - 1);
      }
    }
  }

  /** The first drill feedrate is unique. */
  lemma FirstDrillFeedUnique(ps: seq<Position>, i: nat, j: nat)
    requires i < |ps| && j < |ps|
    requires FirstDrillFeed(ps, i) && FirstDrillFeed(ps, j)
    ensures i == j
  {
  }

  /** A group keeps z and x,y motion apart internally, as the stack it came from did. */
  ghost predicate Steady(g: seq<Position>) {
    |g| > 0 ==> SeparateFrom(At(g[0]), g)
  }

  /** A finished group: at least two records (the down move is collected
      twice), ending below Z0, steady. */
  ghost predicate Finished(g: seq<Position>) {
    |g| >= 2 && g[|g| - 1].z < 0.0 && Steady(g)
  }

  ghost predicate AllFinished(gs: seq<Group>) {
    forall k :: 0 <= k < |gs| ==> Finished(gs[k])
  }

  /** The open group ends at the current position and is steady, and holds at
      least two records while below Z0; nothing is collected before the first
      plunge. */
  ghost predicate OpenShape(st: Scan) {
    && (st.last.z < 0.0 ==> st.started && |st.open| >= 2)
    && (|st.open| > 0 ==> At(st.open[|st.open| - 1]) == st.last)
    && Steady(st.open)
    && (!st.started ==> st.open == [])
  }

  /** A drill feedrate is only recorded at a plunge, and after the first plunge
      there is a finished group or an open one of at least two records. */
  ghost predicate Progress(st: Scan) {
    && (st.drillSpeed != 0.0 ==> st.started)
    && (st.started ==> |st.groups| > 0 || |st.open| >= 2)
  }

  ghost predicate Inv(st: Scan) {
    AllFinished(st.groups) && OpenShape(st) && Progress(st)
  }

  /** How a record moves relative to the previous coordinates. */
  datatype Move = Complex | Down | Up | Travel

  function Kind(last: Point, m: Position): Move {
    if !Separate(last, m) then Complex
    else if m.x == last.x && m.y == last.y && last.z >= 0.0 && m.z < 0.0 then Down
    else if m.x == last.x && m.y == last.y && last.z < 0.0 && m.z >= 0.0 then Up
    else Travel
  }

  function Higher(a: real, b: real): real {
    if b > a then b else a
  }

  /** The down move offers a drill feedrate above the one recorded. */
  predicate Offered(st: Scan, m: Position) {
    m.state.moveMode == Linear && m.state.feedrate > st.drillSpeed
  }

  /** A down move: collected, and collected again as a regular move. */
  function Plunge(st: Scan, m: Position): Scan {
    st.(last := At(m), open := st.open + [m, m], safetyHeight := Higher(st.safetyHeight, m.z),
        drillSpeed := if Offered(st, m) then m.state.feedrate else st.drillSpeed, started := true)
  }

  /** An up move: closes the group and is itself left out. */
  function Close(st: Scan, m: Position): Scan {
    st.(last := At(m), groups := if st.started then st.groups + [st.open] else st.groups,
        open := [], safetyHeight := Higher(st.safetyHeight, m.z))
  }

  /** Any other move: collected once a first plunge has been seen. */
  function Collect(st: Scan, m: Position): Scan {
    st.(last := At(m), open := if st.started then st.open + [m] else st.open,
        safetyHeight := Higher(st.safetyHeight, m.z))
  }

  /** One iteration of the partition loop. */
  function ScanStep(st: Scan, m: Position): Result<Scan> {
    match Kind(st.last, m)
    case Complex => Fail(ComplexZMotion)
    case Down => if Offered(st, m) && st.drillSpeed != 0.0 then Fail(MultipleDrillFeedrates) else Ok(Plunge(st, m))
    case Up => Ok(Close(st, m))
    case Travel => Ok(Collect(st, m))
  }

  lemma SteadyAppend(g: seq<Position>, m: Position)
    requires Steady(g)
    requires |g| > 0 ==> Separate(At(g[|g| - 1]), m)
    ensures Steady(g + [m])
  {
    if |g| > 0 {
      SeparateConcat(At(g[0]), g, [m]);
    } else {
      assert SeparateFrom(At(m), [m]);
    }
  }

  lemma ScanStepShape(st: Scan, m: Position)
    requires Inv(st)
    ensures ScanStep(st, m).Ok? ==> Inv(ScanStep(st, m).value) && ScanStep(st, m).value.last == At(m)
  {
    match Kind(st.last, m)
    case Complex =>
    case Down => PlungeShape(st, m);
    case Up => CloseShape(st, m);
    case Travel => CollectShape(st, m);
  }

  lemma PlungeShape(st: Scan, m: Position)
    requires OpenShape(st) && Kind(st.last, m) == Down
    ensures OpenShape(Plunge(st, m))
  {
    SteadyAppend(st.open, m);
    SteadyAppend(st.open + [m], m);
    assert st.open + [m, m] == st.open + [m] + [m];
  }

  lemma CloseShape(st: Scan, m: Position)
    requires Inv(st) && Kind(st.last, m) == Up
    ensures Inv(Close(st, m))
  {
    var gs := Close(st, m).groups;
    if st.started {
      forall k | 0 <= k < |gs| ensures Finished(gs[k]) {
        if k < |st.groups| {
          assert gs[k] == st.groups[k];
        }
      }
    }
  }

  lemma CollectShape(st: Scan, m: Position)
    requires OpenShape(st) && Kind(st.last, m) == Travel
    ensures OpenShape(Collect(st, m))
  {
    if st.started {
      SteadyAppend(st.open, m);
    }
  }

  /** A step fails exactly on a complex move or on a drill feedrate above the
      one already recorded. */
  lemma ScanStepFails(ps: seq<Position>, n: nat, st: Scan)
    requires 0 < n <= |ps|
    requires st.last == Prev(ps, n - 1) && st.drillSpeed == FirstFeed(ps, n - 1)
    ensures ScanStep(st, ps[n - 1]).Fail? <==>
      || ComplexZ(ps, n - 1)
      || (DrillFeed(ps, n - 1) && st.drillSpeed != 0.0 && ps[n - 1].state.feedrate > st.drillSpeed)
    ensures ScanStep(st, ps[n - 1]).Ok? ==> ScanStep(st, ps[n - 1]).value.drillSpeed == FirstFeed(ps, n)
  {
  }

  /** One step keeps everything the partition loop promises. */
  lemma ScanStepKeeps(ps: seq<Position>, n: nat, st: Scan)
    requires 0 < n <= |ps|
    requires Inv(st) && st.last == Prev(ps, n - 1)
    requires IsMaxHeight(ps, n - 1, st.safetyHeight)
    requires st.drillSpeed == FirstFeed(ps, n - 1)
    ensures var r := ScanStep(st, ps[n - 1]);
      && (r.Ok? ==> Inv(r.value) && r.value.last == Prev(ps, n))
      && (r.Ok? ==> IsMaxHeight(ps, n, r.value.safetyHeight))
      && (r.Ok? ==> r.value.drillSpeed == FirstFeed(ps, n))
      && (r.Fail? ==> r.error == ComplexZMotion || r.error == MultipleDrillFeedrates)
  {
    var m := ps[n - 1];
    ScanStepShape(st, m);
    ScanStepFails(ps, n, st);
    var r := ScanStep(st, m);
    if r.Ok? {
      assert r.value.safetyHeight == Higher(st.safetyHeight, m.z);
      HigherKeepsMax(ps, n, st.safetyHeight);
    }
  }

  lemma HigherKeepsMax(ps: seq<Position>, n: nat, h: real)
    requires 0 < n <= |ps| && IsMaxHeight(ps, n - 1, h)
    ensures IsMaxHeight(ps, n, Higher(h, ps[n - 1].z))
  {
  }

  /** The partition loop over the first `n` records. */
  function ScanUpTo(ps: seq<Position>, n: nat): (r: Result<Scan>)
    requires n <= |ps|
    ensures r.Fail? ==> r.error == ComplexZMotion || r.error == MultipleDrillFeedrates
    decreases n
  {
    if n == 0 then Ok(InitScan)
    else
      match ScanUpTo(ps, n - 1)
      case Fail(e) => Fail(e)
      case Ok(st) => ScanStep(st, ps[n - 1])
  }

  /** The partition loop stands at the last record it has read and holds the
      first drill feedrate among them. */
  lemma {:induction false} ScanTracks(ps: seq<Position>, n: nat)
    requires n <= |ps|
    ensures var r := ScanUpTo(ps, n);
      r.Ok? ==> r.value.last == Prev(ps, n) && r.value.drillSpeed == FirstFeed(ps, n)
    decreases n
  {
    if n > 0 {
      ScanTracks(ps, n - 1);
      var r := ScanUpTo(ps, n - 1);
      if r.Ok? {
        ScanStepFails(ps, n, r.value);
        ScanStepLast(r.value, ps[n - 1]);
        assert ScanUpTo(ps, n) == ScanStep(r.value, ps[n - 1]);
      }
    }
  }

  lemma ScanStepLast(st: Scan, m: Position)
    ensures ScanStep(st, m).Ok? ==> ScanStep(st, m).value.last == At(m)
  {
  }

  /** What the partition loop keeps after the first `n` records: it stands at
      the last of them, holds their maximum z and the first drill feedrate,
      and every group it has closed is finished. */
  lemma {:induction false} ScanKeeps(ps: seq<Position>, n: nat)
    requires n <= |ps|
    ensures var r := ScanUpTo(ps, n);
      && (r.Ok? ==> Inv(r.value) && r.value.last == Prev(ps, n))
      && (r.Ok? ==> IsMaxHeight(ps, n, r.value.safetyHeight))
      && (r.Ok? ==> r.value.drillSpeed == FirstFeed(ps, n))
    decreases n
  {
    if n > 0 {
      ScanKeeps(ps, n - 1);
      var r := ScanUpTo(ps, n - 1);
      if r.Ok? {
        ScanStepKeeps(ps, n, r.value);
      }
    }
  }

  /** One step collects what `Emitted` says, and `started` records whether a
      plunge has been seen. */
  lemma ScanStepCollects(ps: seq<Position>, n: nat, st: Scan)
    requires 0 < n <= |ps|
    requires st.last == Prev(ps, n - 1) && st.started == Plunged(ps, n - 1)
    requires !st.started ==> st.open == []
    requires Join(st.groups) + st.open == Collected(ps, n - 1)
    ensures var r := ScanStep(st, ps[n - 1]);
      r.Ok? ==>
        && r.value.started == Plunged(ps, n)
        && (!r.value.started ==> r.value.open == [])
        && Join(r.value.groups) + r.value.open == Collected(ps, n)
  {
    var m := ps[n - 1];
    var c := Collected(ps, n - 1);
    assert Collected(ps, n) == c + Emitted(ps, n - 1);
    match Kind(st.last, m)
    case Complex =>
    case Down =>
      assert DownMove(ps, n - 1);
      assert Join(st.groups) + (st.open + [m, m]) == c + [m, m];
    case Up =>
      assert UpMove(ps, n - 1) && !DownMove(ps, n - 1);
      if st.started {
        JoinAppend(st.groups, [st.open]);
        assert Join([st.open]) == st.open + Join([]);
      }
    case Travel =>
      assert !DownMove(ps, n - 1) && !UpMove(ps, n - 1);
      if st.started {
        assert Join(st.groups) + (st.open + [m]) == c + [m];
      }
  }

  /** The groups closed so far, followed by the open group, are exactly the
      records collected from the input, in input order. */
  lemma {:induction false} ScanCollects(ps: seq<Position>, n: nat)
    requires n <= |ps|
    ensures var r := ScanUpTo(ps, n);
      r.Ok? ==>
        && r.value.started == Plunged(ps, n)
        && (!r.value.started ==> r.value.open == [])
        && Join(r.value.groups) + r.value.open == Collected(ps, n)
    decreases n
  {
    if n > 0 {
      ScanCollects(ps, n - 1);
      var r := ScanUpTo(ps, n - 1);
      if r.Ok? {
        ScanTracks(ps, n - 1);
        ScanStepCollects(ps, n, r.value);
      }
    }
  }

  /** Record `n - 1` aborts a scan that reached it: a complex move, or a drill
      feedrate above the one recorded so far. */
  predicate StepAborts(ps: seq<Position>, n: nat)
    requires 0 < n <= |ps|
  {
    || ComplexZ(ps, n - 1)
    || (DrillFeed(ps, n - 1) && FirstFeed(ps, n - 1) != 0.0 && ps[n - 1].state.feedrate > FirstFeed(ps, n - 1))
  }

  lemma ScanFailsStep(ps: seq<Position>, n: nat)
    requires 0 < n <= |ps|
    ensures ScanUpTo(ps, n).Fail? <==> ScanUpTo(ps, n - 1).Fail? || StepAborts(ps, n)
  {
    var r := ScanUpTo(ps, n - 1);
    if r.Ok? {
      ScanTracks(ps, n - 1);
      ScanStepFails(ps, n, r.value);
    }
  }

  /** Some record among the first `n` aborts the scan that reaches it. */
  predicate AbortsBy(ps: seq<Position>, n: nat)
    requires n <= |ps|
  {
    n > 0 && (AbortsBy(ps, n - 1) || StepAborts(ps, n))
  }

  lemma ScanFailsExtend(ps: seq<Position>, n: nat)
    requires 0 < n <= |ps|
    requires ScanUpTo(ps, n - 1).Fail? <==> AbortsBy(ps, n - 1)
    ensures ScanUpTo(ps, n).Fail? <==> AbortsBy(ps, n)
  {
    ScanFailsStep(ps, n);
  }

  lemma {:induction false} ScanFailsAbortsBy(ps: seq<Position>, n: nat)
    requires n <= |ps|
    ensures ScanUpTo(ps, n).Fail? <==> AbortsBy(ps, n)
    decreases n
  {
    if n > 0 {
      ScanFailsAbortsBy(ps, n - 1);
      ScanFailsExtend(ps, n);
    }
  }

  lemma {:induction false} AbortsByWitness(ps: seq<Position>, n: nat)
    requires n <= |ps|
    ensures AbortsBy(ps, n) <==> HasComplexZ(ps, n) || FeedrateRises(ps, n)
    decreases n
  {
    if n > 0 {
      AbortsByWitness(ps, n - 1);
      AbortsPersist(ps, n);
      if StepAborts(ps, n) {
        StepFailureWitness(ps, n);
      } else if !AbortsBy(ps, n - 1) {
        NoNewWitness(ps, n);
      }
    }
  }

  /** The scan aborts exactly when some record moves z together with x or y,
      or a later drill feedrate exceeds the first one. */
  lemma ScanAborts(ps: seq<Position>, n: nat)
    requires n <= |ps|
    ensures ScanUpTo(ps, n).Fail? <==> HasComplexZ(ps, n) || FeedrateRises(ps, n)
  {
    ScanFailsAbortsBy(ps, n);
    AbortsByWitness(ps, n);
  }

  lemma AbortsPersist(ps: seq<Position>, n: nat)
    requires 0 < n <= |ps|
    ensures HasComplexZ(ps, n - 1) ==> HasComplexZ(ps, n)
    ensures FeedrateRises(ps, n - 1) ==> FeedrateRises(ps, n)
  {
    if HasComplexZ(ps, n - 1) {
      var i :| 0 <= i < n - 1 && ComplexZ(ps, i);
      assert HasComplexZ(ps, n);
    }
    if FeedrateRises(ps, n - 1) {
      var i, j :| 0 <= i < j < n - 1 && FirstDrillFeed(ps, i) && DrillFeed(ps, j)
        && ps[j].state.feedrate > ps[i].state.feedrate;
      assert FeedrateRises(ps, n);
    }
  }

  /** Once the first drill feedrate has been passed, the scan holds it. */
  lemma FirstFeedIs(ps: seq<Position>, n: nat, i: nat)
    requires i < n <= |ps|
    requires FirstDrillFeed(ps, i)
    ensures FirstFeed(ps, n) == ps[i].state.feedrate
  {
    FirstFeedFound(ps, n);
    var f := FirstFeed(ps, n);
    assert f != 0.0;
    var i' :| 0 <= i' < n && FirstDrillFeed(ps, i') && f == ps[i'].state.feedrate;
    FirstDrillFeedUnique(ps, i, i');
  }

  lemma StepFailureWitness(ps: seq<Position>, n: nat)
    requires 0 < n <= |ps|
    requires StepAborts(ps, n)
    ensures HasComplexZ(ps, n) || FeedrateRises(ps, n)
  {
    if !ComplexZ(ps, n - 1) {
      FirstFeedFound(ps, n - 1);
      var i :| 0 <= i < n - 1 && FirstDrillFeed(ps, i) && FirstFeed(ps, n - 1) == ps[i].state.feedrate;
      assert FeedrateRises(ps, n);
    } else {
      assert HasComplexZ(ps, n);
    }
  }

  lemma NoNewWitness(ps: seq<Position>, n: nat)
    requires 0 < n <= |ps|
    requires !HasComplexZ(ps, n - 1) && !FeedrateRises(ps, n - 1)
    requires !StepAborts(ps, n)
    ensures !HasComplexZ(ps, n) && !FeedrateRises(ps, n)
  {
    forall i, j | 0 <= i < j < n && FirstDrillFeed(ps, i) && DrillFeed(ps, j)
      ensures ps[j].state.feedrate <= ps[i].state.feedrate
    {
      if j == n - 1 {
        FirstFeedIs(ps, n - 1, i);
      }
    }
  }

  /** The checks after the scan: a safety height above 0, a drill feedrate,
      and no group left open unless it is the single return to (0,0,safety). */
  function Validate(st: Scan): Option<Error> {
    if st.safetyHeight == 0.0 then Some(SafetyHeightUndetected)
    else if st.drillSpeed == 0.0 then Some(DrillFeedrateUndetected)
    else if |st.open| == 1 then
      var p := st.open[0];
      if p.z != st.safetyHeight || st.last.z != st.safetyHeight || p.x != 0.0 || p.y != 0.0
      then Some(IncompleteFinalSet)
      else None
    else if |st.open| > 1 then Some(IncompleteFinalSet)
    else None
  }

  /** The whole first phase: the groups to re-sequence, or the reason to abort. */
  function Partition(ps: seq<Position>): (r: Result<Scan>)
    ensures r.Ok? ==> Inv(r.value)
    ensures r.Ok? ==> |ps| > 0 && ps[|ps| - 1].z >= 0.0
    ensures r.Ok? ==> r.value.safetyHeight == MaxZ(ps) && r.value.safetyHeight > 0.0
    ensures r.Ok? ==> r.value.drillSpeed > 0.0
    ensures r.Ok? ==> |r.value.groups| > 0
    ensures r.Ok? ==> Join(r.value.groups) + r.value.open == Collected(ps, |ps|)
  {
    match ScanUpTo(ps, |ps|)
    case Fail(e) => Fail(e)
    case Ok(st) =>
      ScanKeeps(ps, |ps|);
      ScanCollects(ps, |ps|);
      MaxHeightUnique(ps, |ps|, st.safetyHeight, MaxZ(ps));
      match Validate(st)
      case Some(e) => Fail(e)
      case None => Ok(st)
  }

  lemma PartitionPasses(ps: seq<Position>, st: Scan)
    requires ScanUpTo(ps, |ps|) == Ok(st) && Validate(st) == None
    ensures Partition(ps) == Ok(st)
  {
  }

  /** Which check aborts the pass, stated against the records. */
  lemma PartitionErrors(ps: seq<Position>)
    ensures Partition(ps).Fail? && Partition(ps).error in {ComplexZMotion, MultipleDrillFeedrates}
        <==> HasComplexZ(ps, |ps|) || FeedrateRises(ps, |ps|)
    ensures Partition(ps) == Fail(SafetyHeightUndetected)
        <==> !HasComplexZ(ps, |ps|) && !FeedrateRises(ps, |ps|) && MaxZ(ps) == 0.0
    ensures Partition(ps) == Fail(DrillFeedrateUndetected)
        <==> && !HasComplexZ(ps, |ps|) && !FeedrateRises(ps, |ps|) && MaxZ(ps) > 0.0
             && forall k :: 0 <= k < |ps| ==> !DrillFeed(ps, k)
    ensures && !HasComplexZ(ps, |ps|) && !FeedrateRises(ps, |ps|) && MaxZ(ps) > 0.0
            && (exists k :: 0 <= k < |ps| && DrillFeed(ps, k))
            && |ps| > 0 && ps[|ps| - 1].z < 0.0
        ==> Partition(ps) == Fail(IncompleteFinalSet)
  {
    ScanAborts(ps, |ps|);
    match ScanUpTo(ps, |ps|)
    case Fail(e) =>
    case Ok(st) =>
      ScanKeeps(ps, |ps|);
      FirstFeedFound(ps, |ps|);
      MaxHeightUnique(ps, |ps|, st.safetyHeight, MaxZ(ps));
  }
}

=== FILE: lift_speed.dfy ===
/** OptLiftSpeed: a move that only raises z, straight up from the previous
    position, cannot cut, so it is promoted to a rapid move. */
module LiftSpeed {
  import opened Toolpath

  /** Record `i` lifts straight up: same x,y as the record before it (the origin
      for the first record) and a higher z. */
  predicate IsLift(ps: seq<Position>, i: nat)
    requires i < |ps|
  {
    var prev := Prev(ps, i);
    SameXY(ps[i], prev) && ps[i].z > prev.z
  }

  function OptLiftSpeed(ps: seq<Position>): (r: seq<Position>)
    ensures |r| == |ps|
    ensures forall i :: 0 <= i < |ps| ==> At(r[i]) == At(ps[i])
    ensures forall i :: 0 <= i < |ps| ==> r[i].state.(moveMode := ps[i].state.moveMode) == ps[i].state
    ensures forall i :: 0 <= i < |ps| && IsLift(ps, i) ==> r[i].state.moveMode == Rapid
    ensures forall i :: 0 <= i < |ps| && !IsLift(ps, i) ==> r[i] == ps[i]
  {
    seq(|ps|, i requires 0 <= i < |ps| => if IsLift(ps, i) then WithMode(ps[i], Rapid) else ps[i])
  }

  /** The pass leaves coordinates alone, so it finds the same lifts a second
      time, and they are already rapid. */
  lemma LiftSpeedIdempotent(ps: seq<Position>)
    ensures OptLiftSpeed(OptLiftSpeed(ps)) == OptLiftSpeed(ps)
  {
    var r := OptLiftSpeed(ps);
    var rr := OptLiftSpeed(r);
    forall i | 0 <= i < |ps|
      ensures rr[i] == r[i]
    {
      assert Prev(r, i) == Prev(ps, i);
      assert IsLift(r, i) == IsLift(ps, i);
    }
  }
}

=== FILE: return_home.dfy ===
/** Return: appends the rapid moves that bring the tool back to X0 Y0 Z0. */
module ReturnHome {
  import opened Toolpath

  /** The stack never empty: the source reads its last record unguarded. */
  function Return(ps: seq<Position>): (r: seq<Position>)
    requires |ps| > 0
    ensures |ps| <= |r| <= |ps| + 3
    ensures r[..|ps|] == ps
    ensures At(r[|r| - 1]) == Origin
    ensures forall i :: |ps| <= i < |r| ==> r[i].state == ps[|ps| - 1].state.(moveMode := Rapid)
    // every appended move travels along z only or in the x,y plane only
    ensures forall i :: |ps| <= i < |r| ==> SameXY(r[i], At(r[i - 1])) || r[i].z == r[i - 1].z
    // travel in the x,y plane happens at the highest z of the path
    ensures forall i :: |ps| <= i < |r| && !SameXY(r[i], At(r[i - 1])) ==> r[i].z == MaxZ(ps)
    ensures forall i :: |ps| <= i < |r| ==> r[i].z <= MaxZ(ps)
    ensures |r| == |ps| <==> At(ps[|ps| - 1]) == Origin
    ensures |r| == |ps| + 1 <==> ps[|ps| - 1].x == 0.0 && ps[|ps| - 1].y == 0.0 && ps[|ps| - 1].z != 0.0
    ensures |r| == |ps| + 2 <==> !(ps[|ps| - 1].x == 0.0 && ps[|ps| - 1].y == 0.0) && ps[|ps| - 1].z == MaxZ(ps)
    // the waypoints: from the top height straight over to the origin's x,y;
    // from below it, first straight up to it
    ensures |r| == |ps| + 2 ==> At(r[|ps|]) == Point(0.0, 0.0, MaxZ(ps))
    ensures |r| == |ps| + 3 ==>
      && At(r[|ps|]) == Point(ps[|ps| - 1].x, ps[|ps| - 1].y, MaxZ(ps))
      && At(r[|ps| + 1]) == Point(0.0, 0.0, MaxZ(ps))
  {
    var maxz := MaxZ(ps);
    var last := ps[|ps| - 1];
    if last.x == 0.0 && last.y == 0.0 && last.z == 0.0 then ps
    else if last.x == 0.0 && last.y == 0.0 then
      ps + [WithMode(last.(z := 0.0), Rapid)]
    else if last.z == maxz then
      var move1 := WithMode(last.(x := 0.0, y := 0.0), Rapid);
      ps + [move1, move1.(z := 0.0)]
    else
      var move1 := WithMode(last.(z := maxz), Rapid);
      var move2 := move1.(x := 0.0, y := 0.0);
      ps + [move1, move2, move2.(z := 0.0)]
  }

  /** The contract of `Return` fixes its result: any stack meeting it is the one
      `Return` builds. */
  lemma ReturnDetermined(ps: seq<Position>, r: seq<Position>)
    requires |ps| > 0
    requires |ps| <= |r| <= |ps| + 3
    requires r[..|ps|] == ps
    requires At(r[|r| - 1]) == Origin
    requires forall i :: |ps| <= i < |r| ==> r[i].state == ps[|ps| - 1].state.(moveMode := Rapid)
    requires |r| - |ps| == |Return(ps)| - |ps|
    requires |r| == |ps| + 2 ==> At(r[|ps|]) == Point(0.0, 0.0, MaxZ(ps))
    requires |r| == |ps| + 3 ==>
      && At(r[|ps|]) == Point(ps[|ps| - 1].x, ps[|ps| - 1].y, MaxZ(ps))
      && At(r[|ps| + 1]) == Point(0.0, 0.0, MaxZ(ps))
    ensures r == Return(ps)
  {
    var e := Return(ps);
    assert |r| == |e|;
    forall i | 0 <= i < |r|
      ensures r[i] == e[i]
    {
      if i < |ps| {
        assert r[i] == r[..|ps|][i] && e[i] == e[..|ps|][i];
      }
    }
  }

  /** The appended moves stay within the path's height range. */
  lemma ReturnKeepsMaxHeight(ps: seq<Position>)
    requires |ps| > 0
    ensures MaxZ(Return(ps)) == MaxZ(ps)
  {
    var r := Return(ps);
    assert IsMaxHeight(r, |r|, MaxZ(ps)) by {
      forall i | 0 <= i < |r|
        ensures r[i].z <= MaxZ(ps)
      {
        if i < |ps| {
          assert r[i] == r[..|ps|][i];
        }
      }
      if MaxZ(ps) != 0.0 {
        var k :| 0 <= k < |ps| && ps[k].z == MaxZ(ps);
        assert r[k] == r[..|ps|][k];
      }
    }
    MaxHeightUnique(r, |r|, MaxZ(ps), MaxZ(r));
  }

  /** Once the path ends at the origin nothing more is appended. */
  lemma ReturnIdempotent(ps: seq<Position>)
    requires |ps| > 0
    ensures Return(Return(ps)) == Return(ps)
  {
  }

  /** The worked example: ending at (10,10,0) under a top height of 5 appends a
      rise to 5, a traverse to (0,0,5) and a descent to the origin. */
  lemma ReturnExample(s: State)
    ensures var ps := [Position(0.0, 0.0, 5.0, s), Position(10.0, 10.0, 0.0, s)];
      var rs := s.(moveMode := Rapid);
      Return(ps) == ps + [Position(10.0, 10.0, 5.0, rs), Position(0.0, 0.0, 5.0, rs), Position(0.0, 0.0, 0.0, rs)]
  {
    var ps := [Position(0.0, 0.0, 5.0, s), Position(10.0, 10.0, 0.0, s)];
    assert MaxZUpTo(ps, 1) == 5.0;
    assert MaxZUpTo(ps, 2) == 5.0;
  }
}

=== FILE: route_example.dfy ===
/** Two holes drilled with a two-stage retract, run through OptRouteGrouping:
    the as-written redundant-lift rule drops the lift out of the first hole. */
module RouteExample {
  import opened Toolpath
  import opened GroupScan
  import opened GroupOrder
  import opened RouteGrouping

  /** Hole at (1,0), retract to z=1 then to the safety height 5, traverse,
      hole at (2,0), retract. */
  function TwoHoles(s: State): seq<Position> {
    [ Position(1.0, 0.0, 0.0, s), Position(1.0, 0.0, -1.0, s), Position(1.0, 0.0, 1.0, s),
      Position(1.0, 0.0, 5.0, s), Position(2.0, 0.0, 5.0, s), Position(2.0, 0.0, -1.0, s),
      Position(2.0, 0.0, 5.0, s) ]
  }

  /** The scan state after each record of the two-hole program. */
  function Stage(s: State, k: nat): Scan
    requires k <= 7
  {
    var ps := TwoHoles(s);
    var f := s.feedrate;
    var g1 := [ps[1], ps[1]];
    var g2 := [ps[3], ps[4], ps[5], ps[5]];
    if k == 0 then InitScan
    else if k == 1 then Scan(Point(1.0, 0.0, 0.0), [], [], 0.0, 0.0, false)
    else if k == 2 then Scan(Point(1.0, 0.0, -1.0), [], [ps[1], ps[1]], 0.0, f, true)
    else if k == 3 then Scan(Point(1.0, 0.0, 1.0), [g1], [], 1.0, f, true)
    else if k == 4 then Scan(Point(1.0, 0.0, 5.0), [g1], [ps[3]], 5.0, f, true)
    else if k == 5 then Scan(Point(2.0, 0.0, 5.0), [g1], [ps[3], ps[4]], 5.0, f, true)
    else if k == 6 then Scan(Point(2.0, 0.0, -1.0), [g1], g2, 5.0, f, true)
    else Scan(Point(2.0, 0.0, 5.0), [g1, g2], [], 5.0, f, true)
  }

  lemma TwoHolesStep1(s: State)
    requires s.moveMode == Linear && s.feedrate > 0.0
    ensures ScanStep(Stage(s, 0), TwoHoles(s)[0]) == Ok(Stage(s, 1))
  {
    var ps := TwoHoles(s);
    var a, b := Stage(s, 0), Stage(s, 1);
    assert Kind(a.last, ps[0]) == Travel ;
    assert ScanStep(a, ps[0]).value.open == b.open;
    assert ScanStep(a, ps[0]).value.groups == b.groups;
  }

  lemma TwoHolesStep2(s: State)
    requires s.moveMode == Linear && s.feedrate > 0.0
    ensures ScanStep(Stage(s, 1), TwoHoles(s)[1]) == Ok(Stage(s, 2))
  {
    var ps := TwoHoles(s);
    var a, b := Stage(s, 1), Stage(s, 2);
    assert Kind(a.last, ps[1]) == Down && Offered(a, ps[1]);
    assert ScanStep(a, ps[1]).value.open == b.open;
    assert ScanStep(a, ps[1]).value.groups == b.groups;
  }

  lemma TwoHolesStep3(s: State)
    requires s.moveMode == Linear && s.feedrate > 0.0
    ensures ScanStep(Stage(s, 2), TwoHoles(s)[2]) == Ok(Stage(s, 3))
  {
    var ps := TwoHoles(s);
    var a, b := Stage(s, 2), Stage(s, 3);
    assert Kind(a.last, ps[2]) == Up ;
    assert ScanStep(a, ps[2]).value.open == b.open;
    assert ScanStep(a, ps[2]).value.groups == b.groups;
  }

  lemma TwoHolesStep4(s: State)
    requires s.moveMode == Linear && s.feedrate > 0.0
    ensures ScanStep(Stage(s, 3), TwoHoles(s)[3]) == Ok(Stage(s, 4))
  {
    var ps := TwoHoles(s);
    var a, b := Stage(s, 3), Stage(s, 4);
    assert Kind(a.last, ps[3]) == Travel ;
    assert ScanStep(a, ps[3]).value.open == b.open;
    assert ScanStep(a, ps[3]).value.groups == b.groups;
  }

  lemma TwoHolesStep5(s: State)
    requires s.moveMode == Linear && s.feedrate > 0.0
    ensures ScanStep(Stage(s, 4), TwoHoles(s)[4]) == Ok(Stage(s, 5))
  {
    var ps := TwoHoles(s);
    var a, b := Stage(s, 4), Stage(s, 5);
    assert Kind(a.last, ps[4]) == Travel ;
    assert ScanStep(a, ps[4]).value.open == b.open;
    assert ScanStep(a, ps[4]).value.groups == b.groups;
  }

  lemma TwoHolesStep6(s: State)
    requires s.moveMode == Linear && s.feedrate > 0.0
    ensures ScanStep(Stage(s, 5), TwoHoles(s)[5]) == Ok(Stage(s, 6))
  {
    var ps := TwoHoles(s);
    var a, b := Stage(s, 5), Stage(s, 6);
    assert Kind(a.last, ps[5]) == Down && !Offered(a, ps[5]);
    assert ScanStep(a, ps[5]).value.open == b.open;
    assert ScanStep(a, ps[5]).value.groups == b.groups;
  }

  lemma TwoHolesStep7(s: State)
    requires s.moveMode == Linear && s.feedrate > 0.0
    ensures ScanStep(Stage(s, 6), TwoHoles(s)[6]) == Ok(Stage(s, 7))
  {
    var ps := TwoHoles(s);
    var a, b := Stage(s, 6), Stage(s, 7);
    assert Kind(a.last, ps[6]) == Up ;
    assert ScanStep(a, ps[6]).value.open == b.open;
    assert ScanStep(a, ps[6]).value.groups == b.groups;
  }

  /** The scan reaches each stage in turn. */
  lemma {:induction false} TwoHolesStages(s: State, k: nat)
    requires s.moveMode == Linear && s.feedrate > 0.0 && k <= 7
    ensures ScanUpTo(TwoHoles(s), k) == Ok(Stage(s, k))
    decreases k
  {
    if k > 0 {
      TwoHolesStages(s, k - 1);
      if k == 1 { TwoHolesStep1(s); }
      else if k == 2 { TwoHolesStep2(s); }
      else if k == 3 { TwoHolesStep3(s); }
      else if k == 4 { TwoHolesStep4(s); }
      else if k == 5 { TwoHolesStep5(s); }
      else if k == 6 { TwoHolesStep6(s); }
      else { TwoHolesStep7(s); }
      ScanAdvance(TwoHoles(s), k, Stage(s, k - 1), Stage(s, k));
    }
  }

  lemma TwoHolesFinal(s: State)
    requires s.feedrate > 0.0
    ensures var ps := TwoHoles(s);
      && Stage(s, |ps|) == Scan(Point(2.0, 0.0, 5.0), [[ps[1], ps[1]], [ps[3], ps[4], ps[5], ps[5]]], [],
                                5.0, s.feedrate, true)
      && Validate(Stage(s, |ps|)) == None
  {
  }

  /** The scan finds the two holes, safety height 5 and the drill feedrate. */
  lemma TwoHolesScan(s: State)
    requires s.moveMode == Linear && s.feedrate > 0.0
    ensures var ps := TwoHoles(s);
      Partition(ps) == Ok(Scan(Point(2.0, 0.0, 5.0), [[ps[1], ps[1]], [ps[3], ps[4], ps[5], ps[5]]], [],
                               5.0, s.feedrate, true))
  {
    var ps := TwoHoles(s);
    TwoHolesStages(s, |ps|);
    TwoHolesFinal(s);
    PartitionPasses(ps, Stage(s, |ps|));
  }

  /** The first hole is nearer to the origin, so it is visited first. */
  lemma TwoHolesOrder(s: State)
    ensures var ps := TwoHoles(s);
      var gs := [[ps[1], ps[1]], [ps[3], ps[4], ps[5], ps[5]]];
      NonEmpty(gs) && GreedyOrder(gs, Origin) == gs
  {
    var ps := TwoHoles(s);
    var gs := [[ps[1], ps[1]], [ps[3], ps[4], ps[5], ps[5]]];
    assert Dist2(Origin, ps[1]) == 2.0;
    assert Dist2(Origin, ps[3]) == 26.0;
    assert SelectNearest(gs, Origin) == 0;
    var rest := Remove(gs, 0);
    assert rest == [gs[1]];
    assert SelectNearest(rest, At(ps[1])) == 0;
    assert Remove(rest, 0) == [];
    assert GreedyOrder(rest, At(ps[1])) == [gs[1]];
  }

  /** The travel the pass regenerates, as written: nothing between the holes. */
  lemma TwoHolesPiecesAsWritten(s: State)
    requires s.moveMode == Linear && s.feedrate > 0.0
    ensures var ps := TwoHoles(s);
      var gs := [[ps[1], ps[1]], [ps[3], ps[4], ps[5], ps[5]]];
      && NonEmpty(gs)
      && Pieces(ps[0], gs, TravelPlan(5.0, s.feedrate, 0.5), false) == [[ps[1], ps[1]], [ps[4], ps[5], ps[5]]]
  {
    var ps := TwoHoles(s);
    var g1, g2 := [ps[1], ps[1]], [ps[3], ps[4], ps[5], ps[5]];
    var gs := [g1, g2];
    var env := TravelPlan(5.0, s.feedrate, 0.5);
    assert Near(ps[0], ps[1], env) && Near(ps[1], ps[3], env);
    assert MoveTo(ps[0], ps[1], env, false) == [ps[1]];
    assert Piece(ps[0], g1, env, false) == [ps[1], ps[1]];
    assert MoveTo(ps[1], ps[3], env, false) == [];
    assert Piece(ps[1], g2, env, false) == [ps[4], ps[5], ps[5]];
    assert gs[1..] == [g2] && [g2][1..] == [];
    assert Pieces(ps[1], [g2], env, false) == [[ps[4], ps[5], ps[5]]];
  }

  /** The travel the corrected pass regenerates: the lift out of the first hole. */
  lemma TwoHolesPiecesLevelLift(s: State)
    requires s.moveMode == Linear && s.feedrate > 0.0
    ensures var ps := TwoHoles(s);
      var gs := [[ps[1], ps[1]], [ps[3], ps[4], ps[5], ps[5]]];
      && NonEmpty(gs)
      && Pieces(ps[0], gs, TravelPlan(5.0, s.feedrate, 0.5), true) == [[ps[1], ps[1]], [ps[3], ps[4], ps[5], ps[5]]]
  {
    var ps := TwoHoles(s);
    var g1, g2 := [ps[1], ps[1]], [ps[3], ps[4], ps[5], ps[5]];
    var gs := [g1, g2];
    var env := TravelPlan(5.0, s.feedrate, 0.5);
    assert Near(ps[0], ps[1], env) && Near(ps[1], ps[3], env);
    assert MoveTo(ps[0], ps[1], env, true) == [ps[1]];
    assert Piece(ps[0], g1, env, true) == [ps[1], ps[1]];
    assert MoveTo(ps[1], ps[3], env, true) == [ps[3]];
    assert Piece(ps[1], g2, env, true) == [ps[3], ps[4], ps[5], ps[5]];
    assert gs[1..] == [g2] && [g2][1..] == [];
    assert Pieces(ps[1], [g2], env, true) == [[ps[3], ps[4], ps[5], ps[5]]];
  }

  /** The pass on the two holes is the first record followed by the joined pieces. */
  lemma TwoHolesRebuild(s: State, levelOnly: bool)
    requires s.moveMode == Linear && s.feedrate > 0.0
    ensures var ps := TwoHoles(s);
      var gs := [[ps[1], ps[1]], [ps[3], ps[4], ps[5], ps[5]]];
      var env := TravelPlan(5.0, s.feedrate, 0.5);
      && NonEmpty(gs)
      && Regroup(ps, 0.5, levelOnly) == PassResult(Rebuild(ps[0], gs, env, levelOnly), None)
  {
    TwoHolesScan(s);
    TwoHolesOrder(s);
  }

  lemma TwoHolesRebuildAsWritten(s: State)
    requires s.moveMode == Linear && s.feedrate > 0.0
    ensures var ps := TwoHoles(s);
      var gs := [[ps[1], ps[1]], [ps[3], ps[4], ps[5], ps[5]]];
      && NonEmpty(gs)
      && Rebuild(ps[0], gs, TravelPlan(5.0, s.feedrate, 0.5), false) == [ps[0], ps[1], ps[1], ps[4], ps[5], ps[5]]
  {
    var ps := TwoHoles(s);
    var gs := [[ps[1], ps[1]], [ps[3], ps[4], ps[5], ps[5]]];
    TwoHolesPiecesAsWritten(s);
    JoinTwo(Pieces(ps[0], gs, TravelPlan(5.0, s.feedrate, 0.5), false));
  }

  lemma TwoHolesRebuildLevelLift(s: State)
    requires s.moveMode == Linear && s.feedrate > 0.0
    ensures var ps := TwoHoles(s);
      var gs := [[ps[1], ps[1]], [ps[3], ps[4], ps[5], ps[5]]];
      && NonEmpty(gs)
      && Rebuild(ps[0], gs, TravelPlan(5.0, s.feedrate, 0.5), true) == [ps[0], ps[1], ps[1], ps[3], ps[4], ps[5], ps[5]]
  {
    var ps := TwoHoles(s);
    var gs := [[ps[1], ps[1]], [ps[3], ps[4], ps[5], ps[5]]];
    TwoHolesPiecesLevelLift(s);
    JoinTwo(Pieces(ps[0], gs, TravelPlan(5.0, s.feedrate, 0.5), true));
  }

  /** As written, the pass moves from the bottom of the first hole straight to
      (2,0,5): z and x change together, through the material. */
  lemma TwoHolesAsWritten(s: State)
    requires s.moveMode == Linear && s.feedrate > 0.0
    ensures var ps := TwoHoles(s);
      var r := OptRouteGrouping(ps, 0.5);
      && r.error.None?
      && r.stack == [ps[0], ps[1], ps[1], ps[4], ps[5], ps[5]]
      && !SeparateFrom(Origin, r.stack)
  {
    var ps := TwoHoles(s);
    TwoHolesRebuild(s, false);
    TwoHolesRebuildAsWritten(s);
    var out := OptRouteGrouping(ps, 0.5).stack;
    assert !Separate(From(Origin, out, 3), out[3]);
  }

  /** The corrected pass keeps the lift to the safety height before the traverse. */
  lemma TwoHolesLevelLift(s: State)
    requires s.moveMode == Linear && s.feedrate > 0.0
    ensures var ps := TwoHoles(s);
      var r := OptRouteGroupingLevelLift(ps, 0.5);
      && r.error.None?
      && r.stack == [ps[0], ps[1], ps[1], ps[3], ps[4], ps[5], ps[5]]
  {
    TwoHolesRebuild(s, true);
    TwoHolesRebuildLevelLift(s);
  }

  lemma ScanAdvance(ps: seq<Position>, n: nat, a: Scan, b: Scan)
    requires 0 < n <= |ps|
    requires ScanUpTo(ps, n - 1) == Ok(a) && ScanStep(a, ps[n - 1]) == Ok(b)
    ensures ScanUpTo(ps, n) == Ok(b)
  {
  }

  lemma JoinTwo<T>(ss: seq<seq<T>>)
    requires |ss| == 2
    ensures Join(ss) == ss[0] + ss[1]
  {
    assert ss[1..][1..] == [];
    assert Join(ss[1..]) == ss[1] + [];
  }
}

=== FILE: route_grouping.dfy ===
/** OptRouteGrouping: partition the stack into groups of moves below Z0, visit
    the groups nearest-first from the origin, and regenerate the travel between
    them. */
module RouteGrouping {
  import opened Toolpath
  import opened GroupScan
  import opened GroupOrder

  /** What the regenerated travel needs: the safety height and drill feedrate
      found by the scan, and the machine's x,y tolerance. */
  datatype TravelPlan = TravelPlan(safety: real, drillSpeed: real, tolerance: real)

  /** Within tolerance in both x and y. */
  predicate Near(cur: Position, pos: Position, env: TravelPlan) {
    Abs(cur.x - pos.x) < env.tolerance && Abs(cur.y - pos.y) < env.tolerance
  }

  /** The travel from `cur` to the first record `pos` of the next group.
      Near: an optional linear x,y correction at the current height, then `pos`
      itself unless the lift to it counts as redundant. Far: a rapid lift to
      the safety height, a rapid traverse, and a linear descent at the drill
      feedrate. As written (`levelOnly` false) a move to the safety height is
      always dropped as redundant; with `levelOnly` it is dropped only when the
      tool is already level with it. */
  function MoveTo(cur: Position, pos: Position, env: TravelPlan, levelOnly: bool): (r: seq<Position>)
    ensures SeparateFrom(At(cur), r)
    ensures SameXY(LastOr(cur, r), At(pos))
    ensures At(LastOr(cur, r)) == At(pos) || (pos.z == env.safety && LastOr(cur, r).z == cur.z)
    ensures levelOnly ==> At(LastOr(cur, r)) == At(pos)
    ensures !Near(cur, pos, env) ==>
      && |r| == 3
      && r[0].x == cur.x && r[0].y == cur.y && r[0].z == env.safety
      && r[0].state == cur.state.(moveMode := Rapid)
      && r[1].x == pos.x && r[1].y == pos.y && r[1].z == env.safety && r[1].state == r[0].state
      && At(r[2]) == At(pos) && r[2].state == cur.state.(moveMode := Linear, feedrate := env.drillSpeed)
    ensures Near(cur, pos, env) ==> |r| <= 2 && forall i :: 0 <= i < |r| - 1 ==> r[i].z == cur.z
    ensures Near(cur, pos, env) ==>
      var corrected := cur.x != pos.x || cur.y != pos.y;
      var dropped := pos.z == env.safety && (!levelOnly || cur.z == pos.z);
      && |r| == (if corrected then 1 else 0) + (if dropped then 0 else 1)
      && (corrected ==> && r[0].x == pos.x && r[0].y == pos.y && r[0].z == cur.z
                        && r[0].state == cur.state.(moveMode := Linear))
      && (!dropped ==> r[|r| - 1] == pos)
  {
    if Near(cur, pos, env) then
      var fix := if cur.x != pos.x || cur.y != pos.y then [WithMode(cur, Linear).(x := pos.x, y := pos.y)] else [];
      if pos.z == env.safety && (!levelOnly || cur.z == pos.z) then fix else fix + [pos]
    else
      var up := WithMode(cur.(z := env.safety), Rapid);
      var across := up.(x := pos.x, y := pos.y);
      var down := across.(z := pos.z, state := across.state.(moveMode := Linear, feedrate := env.drillSpeed));
      [up, across, down]
  }

  /** What one group contributes: the travel to its first record, then the
      rest of the group verbatim. */
  function Piece(cur: Position, g: Group, env: TravelPlan, levelOnly: bool): seq<Position>
    requires |g| > 0
  {
    MoveTo(cur, g[0], env, levelOnly) + g[1..]
  }

  /** The piece builder of the pass: `Piece` for every group with a first record. */
  function PieceOf(env: TravelPlan, levelOnly: bool): (Position, Group) -> seq<Position> {
    (cur: Position, g: Group) => if |g| > 0 then Piece(cur, g, env, levelOnly) else []
  }

  /** Pieces built one group at a time, each from wherever the previous piece
      left the tool. */
  function Chain(prev: Position, gs: seq<Group>, piece: (Position, Group) -> seq<Position>): (r: seq<seq<Position>>)
    ensures |r| == |gs|
    decreases |gs|
  {
    if |gs| == 0 then []
    else
      var p := piece(prev, gs[0]);
      [p] + Chain(LastOr(prev, p), gs[1..], piece)
  }

  /** The pieces of the groups in visiting order. */
  function Pieces(prev: Position, gs: seq<Group>, env: TravelPlan, levelOnly: bool): (r: seq<seq<Position>>)
    requires NonEmpty(gs)
    ensures |r| == |gs|
  {
    Chain(prev, gs, PieceOf(env, levelOnly))
  }

  predicate EndsWith(s: seq<Position>, p: Position) {
    |s| > 0 && s[|s| - 1] == p
  }

  /** A piece builder whose pieces end with the last record of their group. */
  ghost predicate EndsWithGroup(piece: (Position, Group) -> seq<Position>) {
    forall cur: Position, g: Group :: |g| >= 2 ==> EndsWith(piece(cur, g), g[|g| - 1])
  }

  /** When every piece ends with its group, the piece of every group after the
      first starts from the last record of the group before it. */
  lemma {:induction false} ChainAt(prev: Position, gs: seq<Group>, piece: (Position, Group) -> seq<Position>, k: nat)
    requires EndsWithGroup(piece)
    requires forall i :: 0 <= i < |gs| ==> |gs[i]| >= 2
    requires 0 < k < |gs|
    ensures Chain(prev, gs, piece)[k] == piece(gs[k - 1][|gs[k - 1]| - 1], gs[k])
    decreases k
  {
    var p := piece(prev, gs[0]);
    var next := gs[0][|gs[0]| - 1];
    var tail := gs[1..];
    assert EndsWith(p, next);
    assert Chain(prev, gs, piece)[k] == Chain(next, tail, piece)[k - 1];
    if k > 1 {
      ChainAt(next, tail, piece, k - 1);
      assert tail[k - 2] == gs[k - 1] && tail[k - 1] == gs[k];
    }
  }

  /** ... and the joined pieces end with the last record of the last group. */
  lemma ChainLast(prev: Position, gs: seq<Group>, piece: (Position, Group) -> seq<Position>)
    requires EndsWithGroup(piece)
    requires |gs| > 0 && forall i :: 0 <= i < |gs| ==> |gs[i]| >= 2
    ensures var j := Join(Chain(prev, gs, piece)); |j| > 0 && j[|j| - 1] == gs[|gs| - 1][|gs[|gs| - 1]| - 1]
  {
    var c := Chain(prev, gs, piece);
    var k := |gs| - 1;
    if k == 0 {
      assert c[0] == piece(prev, gs[0]);
    } else {
      ChainAt(prev, gs, piece, k);
    }
    assert EndsWith(c[k], gs[k][|gs[k]| - 1]);
    JoinLast(c);
  }

  lemma PieceOfEnds(env: TravelPlan, levelOnly: bool)
    ensures EndsWithGroup(PieceOf(env, levelOnly))
  {
    forall cur: Position, g: Group | |g| >= 2
      ensures EndsWith(PieceOf(env, levelOnly)(cur, g), g[|g| - 1])
    {
      PieceEnd(cur, g, env, levelOnly);
    }
  }

  /** The piece of every group after the first starts from the last record of
      the group before it. */
  lemma PieceAt(prev: Position, gs: seq<Group>, env: TravelPlan, levelOnly: bool, k: nat)
    requires forall i :: 0 <= i < |gs| ==> |gs[i]| >= 2
    requires 0 < k < |gs|
    ensures NonEmpty(gs)
    ensures Pieces(prev, gs, env, levelOnly)[k] == Piece(gs[k - 1][|gs[k - 1]| - 1], gs[k], env, levelOnly)
  {
    PieceOfEnds(env, levelOnly);
    ChainAt(prev, gs, PieceOf(env, levelOnly), k);
  }

  /** Each piece ends with its group's records after the first, unchanged, and
      the travel into every group after the first starts where the previous
      group ended. */
  lemma PiecesLayout(prev: Position, gs: seq<Group>, env: TravelPlan, levelOnly: bool)
    requires forall i :: 0 <= i < |gs| ==> |gs[i]| >= 2
    ensures NonEmpty(gs)
    ensures var r := Pieces(prev, gs, env, levelOnly);
      && (|gs| > 0 ==> r[0] == MoveTo(prev, gs[0][0], env, levelOnly) + gs[0][1..])
      && (forall k :: 0 < k < |gs| ==>
            r[k] == MoveTo(gs[k - 1][|gs[k - 1]| - 1], gs[k][0], env, levelOnly) + gs[k][1..])
  {
    forall k | 0 < k < |gs|
      ensures Pieces(prev, gs, env, levelOnly)[k]
        == MoveTo(gs[k - 1][|gs[k - 1]| - 1], gs[k][0], env, levelOnly) + gs[k][1..]
    {
      PieceAt(prev, gs, env, levelOnly, k);
    }
  }

  /** The stack the pass builds: the first record of the input, then the pieces. */
  function Rebuild(first: Position, gs: seq<Group>, env: TravelPlan, levelOnly: bool): seq<Position>
    requires NonEmpty(gs)
  {
    [first] + Join(Pieces(first, gs, env, levelOnly))
  }

  /** The whole pass. On any error the stack is left as it was. */
  function Regroup(ps: seq<Position>, tolerance: real, levelOnly: bool): (r: PassResult)
    ensures r.error.Some? ==> r.stack == ps
    ensures r.error.Some? <==> Partition(ps).Fail?
    ensures r.error.Some? ==> r.error.value == Partition(ps).error
    ensures r.error.None? ==> |ps| > 0 && |r.stack| > 0 && r.stack[0] == ps[0]
  {
    var scan := Partition(ps);
    if scan.Fail? then PassResult(ps, Some(scan.error))
    else
      var st := scan.value;
      var env := TravelPlan(st.safetyHeight, st.drillSpeed, tolerance);
      GroupsNonEmpty(st.groups);
      GreedyNonEmpty(st.groups, Origin);
      PassResult(Rebuild(ps[0], GreedyOrder(st.groups, Origin), env, levelOnly), None)
  }

  lemma GroupsNonEmpty(gs: seq<Group>)
    requires AllFinished(gs)
    ensures NonEmpty(gs)
  {
    assert forall k :: 0 <= k < |gs| ==> Finished(gs[k]);
  }

  /** The pass as written. */
  function OptRouteGrouping(ps: seq<Position>, tolerance: real): (r: PassResult)
    ensures r.error.Some? ==> r.stack == ps
    ensures r.error.None? ==> |ps| > 0 && |r.stack| > 0 && r.stack[0] == ps[0]
  {
    Regroup(ps, tolerance, false)
  }

  /** The pass with the redundant-lift rule corrected: a move to the safety
      height is dropped only when the tool is already at that height. */
  function OptRouteGroupingLevelLift(ps: seq<Position>, tolerance: real): (r: PassResult)
    ensures r.error.Some? ==> r.stack == ps
    ensures r.error.None? ==> |ps| > 0 && |r.stack| > 0 && r.stack[0] == ps[0]
  {
    Regroup(ps, tolerance, true)
  }

  lemma LastOrFrom(prev: Position, s: seq<Position>)
    ensures From(At(prev), s, |s|) == At(LastOr(prev, s))
  {
  }

  /** A piece keeps z and x,y motion apart when its group does and the travel
      reaches the group's first record exactly. */
  lemma PieceSeparate(prev: Position, g: Group, env: TravelPlan)
    requires |g| > 0 && Steady(g)
    ensures SeparateFrom(At(prev), Piece(prev, g, env, true))
  {
    var m := MoveTo(prev, g[0], env, true);
    LastOrFrom(prev, m);
    SeparateSuffix(At(g[0]), g, 1);
    SeparateConcat(At(prev), m, g[1..]);
  }

  /** With the corrected rule the regenerated stack never moves z together
      with x or y, provided every group keeps them apart. */
  lemma {:induction false} PiecesSeparate(prev: Position, gs: seq<Group>, env: TravelPlan)
    requires forall i :: 0 <= i < |gs| ==> |gs[i]| > 0 && Steady(gs[i])
    ensures NonEmpty(gs)
    ensures SeparateFrom(At(prev), Join(Pieces(prev, gs, env, true)))
    decreases |gs|
  {
    if |gs| > 0 {
      var p := Piece(prev, gs[0], env, true);
      var next := LastOr(prev, p);
      var ps := Pieces(prev, gs, env, true);
      PieceSeparate(prev, gs[0], env);
      PiecesSeparate(next, gs[1..], env);
      assert ps[1..] == Pieces(next, gs[1..], env, true);
      assert Join(ps) == p + Join(Pieces(next, gs[1..], env, true));
      LastOrFrom(prev, p);
      SeparateConcat(At(prev), p, Join(Pieces(next, gs[1..], env, true)));
    }
  }

  lemma OrderKeepsFinished(gs: seq<Group>, cur: Point)
    requires AllFinished(gs)
    ensures NonEmpty(gs)
    ensures AllFinished(GreedyOrder(gs, cur))
  {
    GroupsNonEmpty(gs);
    var r := GreedyOrder(gs, cur);
    forall i | 0 <= i < |r| ensures Finished(r[i]) {
      assert r[i] in multiset(gs);
      var j :| 0 <= j < |gs| && gs[j] == r[i];
    }
  }

  /** The corrected pass keeps the property it demands of its input: no move
      of the rebuilt stack changes z together with x or y. */
  lemma LevelLiftKeepsMotionSeparate(ps: seq<Position>, tolerance: real)
    ensures var r := OptRouteGroupingLevelLift(ps, tolerance);
      r.error.None? ==> SeparateFrom(Origin, r.stack)
  {
    var r := OptRouteGroupingLevelLift(ps, tolerance);
    if r.error.None? {
      ScanAborts(ps, |ps|);
      var st := Partition(ps).value;
      assert !ComplexZ(ps, 0);
      var env := TravelPlan(st.safetyHeight, st.drillSpeed, tolerance);
      OrderKeepsFinished(st.groups, Origin);
      var order := GreedyOrder(st.groups, Origin);
      PiecesSeparate(ps[0], order, env);
      SeparateConcat(Origin, [ps[0]], Join(Pieces(ps[0], order, env, true)));
    }
  }

  /** As written, a group whose first record is a lift to the safety height at
      the x,y where the previous group ended loses that lift: the tool leaves
      the hole diagonally. The corrected rule keeps the lift. */
  lemma RedundantLiftLeavesHole(cur: Position, g: Group, env: TravelPlan)
    requires cur.z < 0.0 < env.safety && env.tolerance > 0.0
    requires |g| >= 2 && Steady(g)
    requires SameXY(g[0], At(cur)) && g[0].z == env.safety
    requires g[1].z == env.safety && !SameXY(g[1], At(g[0]))
    ensures !SeparateFrom(At(cur), Piece(cur, g, env, false))
    ensures SeparateFrom(At(cur), Piece(cur, g, env, true))
  {
    assert MoveTo(cur, g[0], env, false) == [];
    assert Piece(cur, g, env, false)[0] == g[1];
    assert !Separate(From(At(cur), Piece(cur, g, env, false), 0), g[1]);
    PieceSeparate(cur, g, env);
  }

  lemma PieceEnd(prev: Position, g: Group, env: TravelPlan, levelOnly: bool)
    requires |g| >= 2
    ensures var p := Piece(prev, g, env, levelOnly); |p| > 0 && p[|p| - 1] == g[|g| - 1]
  {
  }

  /** The pieces end where the last group ends. */
  lemma PiecesLast(prev: Position, gs: seq<Group>, env: TravelPlan, levelOnly: bool)
    requires |gs| > 0 && forall i :: 0 <= i < |gs| ==> |gs[i]| >= 2
    ensures NonEmpty(gs)
    ensures var j := Join(Pieces(prev, gs, env, levelOnly));
      |j| > 0 && j[|j| - 1] == gs[|gs| - 1][|gs[|gs| - 1]| - 1]
  {
    PieceOfEnds(env, levelOnly);
    ChainLast(prev, gs, PieceOf(env, levelOnly));
  }

  /** The return to the surface after the last group is not regenerated: a
      regrouped stack ends at the bottom of the last group visited. */
  lemma EndsBelowSurface(ps: seq<Position>, tolerance: real, levelOnly: bool)
    ensures var r := Regroup(ps, tolerance, levelOnly);
      r.error.None? ==> r.stack[|r.stack| - 1].z < 0.0
  {
    var r := Regroup(ps, tolerance, levelOnly);
    if r.error.None? {
      var st := Partition(ps).value;
      var env := TravelPlan(st.safetyHeight, st.drillSpeed, tolerance);
      OrderKeepsFinished(st.groups, Origin);
      var order := GreedyOrder(st.groups, Origin);
      RebuildEndsBelow(ps[0], order, env, levelOnly);
    }
  }

  lemma RebuildEndsBelow(first: Position, gs: seq<Group>, env: TravelPlan, levelOnly: bool)
    requires |gs| > 0 && AllFinished(gs)
    ensures NonEmpty(gs)
    ensures var s := Rebuild(first, gs, env, levelOnly); s[|s| - 1].z < 0.0
  {
    GroupsNonEmpty(gs);
    assert Finished(gs[|gs| - 1]);
    PiecesLast(first, gs, env, levelOnly);
  }
}

=== FILE: safety_height.dfy ===
/** SetSafetyHeight: finds the highest z of the path and the next lower one,
    and moves the lifts to the highest z onto a requested height, provided it
    still clears the next lower one. */
module SafetyHeight {
  import opened Toolpath

  datatype Heights = Heights(maxz: real, nextz: real)

  /** `nextz` is the highest z below `maxz` among the first `n` records, or 0
      when there is none above 0. */
  ghost predicate IsNextHeight(ps: seq<Position>, n: nat, maxz: real, nextz: real)
    requires n <= |ps|
  {
    && 0.0 <= nextz <= maxz
    && (maxz > 0.0 ==> nextz < maxz)
    && (forall i :: 0 <= i < n && ps[i].z < maxz ==> ps[i].z <= nextz)
    && (nextz == 0.0 || exists i :: 0 <= i < n && ps[i].z == nextz)
  }

  /** The single scan over the first `n` records that tracks both heights. */
  function ScanHeights(ps: seq<Position>, n: nat): (h: Heights)
    requires n <= |ps|
    ensures IsMaxHeight(ps, n, h.maxz)
    ensures IsNextHeight(ps, n, h.maxz, h.nextz)
    decreases n
  {
    if n == 0 then Heights(0.0, 0.0)
    else
      var h := ScanHeights(ps, n - 1);
      var z := ps[n - 1].z;
      var h' := if z > h.maxz then Heights(z, h.maxz) else h;
      if z > h'.nextz && z < h'.maxz then Heights(h'.maxz, z) else h'
  }

  /** Record `i` is a lift to the top height: same x,y as the record before it
      (the origin for the first record) and z equal to `maxz`. */
  predicate Raised(ps: seq<Position>, i: nat, maxz: real)
    requires i < |ps|
  {
    SameXY(ps[i], Prev(ps, i)) && ps[i].z == maxz
  }

  function SetSafetyHeight(ps: seq<Position>, height: real): (r: PassResult)
    ensures var h := ScanHeights(ps, |ps|);
      (r.error.Some? <==> height <= h.nextz)
      && (r.error.Some? ==> r.stack == ps && r.error.value == SafetyHeightCollision(h.nextz))
    ensures r.error.None? ==>
      && |r.stack| == |ps|
      && (forall i :: 0 <= i < |ps| && Raised(ps, i, MaxZ(ps)) ==> r.stack[i] == ps[i].(z := height))
      && (forall i :: 0 <= i < |ps| && !Raised(ps, i, MaxZ(ps)) ==> r.stack[i] == ps[i])
    ensures r.error.None? ==>
      forall i, j :: 0 <= i < |ps| && 0 <= j < |ps| && Raised(ps, i, MaxZ(ps)) && ps[j].z < MaxZ(ps)
        ==> r.stack[i].z > ps[j].z
  {
    var h := ScanHeights(ps, |ps|);
    MaxHeightUnique(ps, |ps|, h.maxz, MaxZ(ps));
    if height <= h.nextz then PassResult(ps, Some(SafetyHeightCollision(h.nextz)))
    else
      var out := seq(|ps|, i requires 0 <= i < |ps| =>
        if Raised(ps, i, h.maxz) then ps[i].(z := height) else ps[i]);
      PassResult(out, None)
  }

  /** The request is refused exactly when the new height does not clear 0 or
      some record lying below the top height. */
  lemma {:induction false} SafetyHeightRejects(ps: seq<Position>, height: real)
    ensures SetSafetyHeight(ps, height).error.Some? <==>
      (height <= 0.0 || exists i :: 0 <= i < |ps| && ps[i].z < MaxZ(ps) && height <= ps[i].z)
  {
    var h := ScanHeights(ps, |ps|);
    MaxHeightUnique(ps, |ps|, h.maxz, MaxZ(ps));
    if height <= h.nextz && height > 0.0 {
      var i :| 0 <= i < |ps| && ps[i].z == h.nextz;
      assert ps[i].z < MaxZ(ps);
    }
  }

  /** The worked example: tops of 5 and 2; 3 is accepted, 1.5 is refused. */
  lemma SafetyHeightExample(s: State)
    ensures var ps := [Position(0.0, 0.0, 5.0, s), Position(0.0, 0.0, 2.0, s), Position(0.0, 0.0, 5.0, s)];
      && SetSafetyHeight(ps, 3.0)
         == PassResult([Position(0.0, 0.0, 3.0, s), Position(0.0, 0.0, 2.0, s), Position(0.0, 0.0, 3.0, s)], None)
      && SetSafetyHeight(ps, 1.5) == PassResult(ps, Some(SafetyHeightCollision(2.0)))
  {
    var ps := [Position(0.0, 0.0, 5.0, s), Position(0.0, 0.0, 2.0, s), Position(0.0, 0.0, 5.0, s)];
    assert ScanHeights(ps, 1) == Heights(5.0, 0.0);
    assert ScanHeights(ps, 2) == Heights(5.0, 2.0);
    assert ScanHeights(ps, 3) == Heights(5.0, 2.0);
  }
}

=== FILE: toolpath.dfy ===
/** The machine's position stack: the ordered list of moves every optimisation
    pass rewrites, and the few notions the passes share. */
module Toolpath {

  /** How the controller reaches a position. `Other` stands for the arc modes and
      anything else the geometric passes leave alone. */
  datatype MoveMode = Rapid | Linear | Other

  /** The machine state recorded with each position. */
  datatype State = State(
    moveMode: MoveMode,
    feedrate: real,
    spindleSpeed: real,
    spindleEnabled: bool,
    spindleClockwise: bool)

  /** One record of the position stack: an absolute target and the state used to reach it. */
  datatype Position = Position(x: real, y: real, z: real, state: State)

  /** A bare coordinate triple; also used as a displacement vector. */
  datatype Point = Point(x: real, y: real, z: real)

  const Origin: Point := Point(0.0, 0.0, 0.0)

  datatype Option<T> = None | Some(value: T)

  /** The reasons a pass can refuse to rewrite the stack. */
  datatype Error =
    | ComplexZMotion
    | MultipleDrillFeedrates
    | SafetyHeightUndetected
    | DrillFeedrateUndetected
    | IncompleteFinalSet
    | SafetyHeightCollision(lowerHeight: real)

  datatype Result<T> = Ok(value: T) | Fail(error: Error)

  /** What the machine holds after a pass that may fail, and the error it reported. */
  datatype PassResult = PassResult(stack: seq<Position>, error: Option<Error>)

  function At(p: Position): Point {
    Point(p.x, p.y, p.z)
  }

  /** The coordinates a scan remembers when it reaches record `i`: every scan of
      the stack starts from the origin, not from the first record. */
  function Prev(ps: seq<Position>, i: nat): Point
    requires i <= |ps|
  {
    if i == 0 then Origin else At(ps[i - 1])
  }

  predicate SameXY(p: Position, q: Point) {
    p.x == q.x && p.y == q.y
  }

  /** The move from `p` to `q` changes z or x,y, but not both. */
  predicate Separate(p: Point, q: Position) {
    q.z == p.z || SameXY(q, p)
  }

  /** Where the tool is before record `i` of `s` when `s` starts from `p`. */
  function From(p: Point, s: seq<Position>, i: nat): Point
    requires i <= |s|
  {
    if i == 0 then p else At(s[i - 1])
  }

  /** Every move of `s`, run from `p`, changes z or x,y but not both. */
  ghost predicate SeparateFrom(p: Point, s: seq<Position>) {
    forall i :: 0 <= i < |s| ==> Separate(From(p, s, i), s[i])
  }

  /** Running `a` then `b` keeps z and x,y motion apart when each part does. */
  lemma SeparateConcat(p: Point, a: seq<Position>, b: seq<Position>)
    requires SeparateFrom(p, a)
    requires SeparateFrom(From(p, a, |a|), b)
    ensures SeparateFrom(p, a + b)
  {
    var s := a + b;
    forall i | 0 <= i < |s| ensures Separate(From(p, s, i), s[i]) {
      if i < |a| {
        assert From(p, s, i) == From(p, a, i);
      } else {
        assert From(p, s, i) == From(From(p, a, |a|), b, i - |a|);
      }
    }
  }

  /** A suffix of a separated run is separated from where it starts. */
  lemma SeparateSuffix(p: Point, s: seq<Position>, k: nat)
    requires SeparateFrom(p, s) && k <= |s|
    ensures SeparateFrom(From(p, s, k), s[k..])
  {
    forall i | 0 <= i < |s| - k ensures Separate(From(From(p, s, k), s[k..], i), s[k..][i]) {
      assert From(From(p, s, k), s[k..], i) == From(p, s, k + i);
    }
  }

  function Abs(a: real): real {
    if a < 0.0 then -a else a
  }

  function WithMode(p: Position, mode: MoveMode): Position {
    p.(state := p.state.(moveMode := mode))
  }

  /** The last of `s`, or `p` when `s` is empty: where the tool is after
      running `s` from `p`. */
  function LastOr(p: Position, s: seq<Position>): Position {
    if |s| == 0 then p else s[|s| - 1]
  }

  /** `m` is the highest z among the first `n` records, or 0 when none is above 0
      (every scan starts its maximum at 0). */
  ghost predicate IsMaxHeight(ps: seq<Position>, n: nat, m: real)
    requires n <= |ps|
  {
    && m >= 0.0
    && (forall i :: 0 <= i < n ==> ps[i].z <= m)
    && (m == 0.0 || exists i :: 0 <= i < n && ps[i].z == m)
  }

  lemma MaxHeightUnique(ps: seq<Position>, n: nat, a: real, b: real)
    requires n <= |ps|
    requires IsMaxHeight(ps, n, a) && IsMaxHeight(ps, n, b)
    ensures a == b
  {
  }

  /** The `if m.z > maxz { maxz = m.z }` scan over the first `n` records. */
  function MaxZUpTo(ps: seq<Position>, n: nat): (m: real)
    requires n <= |ps|
    ensures IsMaxHeight(ps, n, m)
    decreases n
  {
    if n == 0 then 0.0
    else
      var m := MaxZUpTo(ps, n - 1);
      if ps[n - 1].z > m then ps[n - 1].z else m
  }

  function MaxZ(ps: seq<Position>): (m: real)
    ensures IsMaxHeight(ps, |ps|, m)
  {
    MaxZUpTo(ps, |ps|)
  }

  function Join<T>(ss: seq<seq<T>>): seq<T> {
    if |ss| == 0 then [] else ss[0] + Join(ss[1..])
  }
  lemma {:induction false} JoinLast<T>(ss: seq<seq<T>>)
    requires |ss| > 0 && |ss[|ss| - 1]| > 0
    ensures |Join(ss)| > 0 && Join(ss)[|Join(ss)| - 1] == ss[|ss| - 1][|ss[|ss| - 1]| - 1]
    decreases |ss|
  {
    if |ss| > 1 {
      JoinLast(ss[1..]);
      assert ss[1..][|ss[1..]| - 1] == ss[|ss| - 1];
    } else {
      assert Join(ss) == ss[0] + Join(ss[1..]) && ss[1..] == [];
    }
  }

  lemma {:induction false} JoinAppend<T>(a: seq<seq<T>>, b: seq<seq<T>>)
    ensures Join(a + b) == Join(a) + Join(b)
    decreases |a|
  {
    if |a| > 0 {
      assert (a + b)[1..] == a[1..] + b;
      JoinAppend(a[1..], b);
    } else {
      assert a + b == b;
    }
  }

  /** Joining pieces of `lo` to `hi` elements each gives between `lo` and `hi`
      times as many elements. */
  lemma {:induction false} JoinBounds<T>(ss: seq<seq<T>>, lo: nat, hi: nat)
    requires forall i :: 0 <= i < |ss| ==> lo <= |ss[i]| <= hi
    ensures lo * |ss| <= |Join(ss)| <= hi * |ss|
    decreases |ss|
  {
    if |ss| > 0 {
      JoinBounds(ss[1..], lo, hi);
    }
  }

  /** Piece `i` of `ss` sits in `Join(ss)` right after the pieces before it. */
  lemma JoinSlot<T>(ss: seq<seq<T>>, i: nat)
    requires i < |ss|
    ensures |Join(ss[..i])| + |ss[i]| == |Join(ss[..i + 1])| <= |Join(ss)|
    ensures Join(ss)[|Join(ss[..i])|..|Join(ss[..i + 1])|] == ss[i]
    ensures |ss[i]| > 0 ==> Join(ss)[|Join(ss[..i + 1])| - 1] == ss[i][|ss[i]| - 1]
  {
    var pre, rest := ss[..i], ss[i + 1..];
    assert ss[..i + 1] == pre + [ss[i]];
    assert ss == pre + [ss[i]] + rest;
    JoinAppend(pre, [ss[i]]);
    JoinAppend(pre + [ss[i]], rest);
    assert Join([ss[i]]) == ss[i] + Join([]);
  }


  /** `a` can be obtained from `b` by deleting records. Matching greedily from
      the back decides this exactly. */
  predicate IsSubsequence<T(==)>(a: seq<T>, b: seq<T>)
    decreases |b|
  {
    if |a| == 0 then true
    else if |b| == 0 then false
    else if a[|a| - 1] == b[|b| - 1] then IsSubsequence(a[..|a| - 1], b[..|b| - 1])
    else IsSubsequence(a, b[..|b| - 1])
  }

  lemma {:induction false} SubsequenceShorter<T>(a: seq<T>, b: seq<T>)
    requires IsSubsequence(a, b)
    ensures |a| <= |b|
    decreases |b|
  {
    if |a| > 0 {
      if a[|a| - 1] == b[|b| - 1] {
        SubsequenceShorter(a[..|a| - 1], b[..|b| - 1]);
      } else {
        SubsequenceShorter(a, b[..|b| - 1]);
      }
    }
  }

  /** Dropping the last kept record keeps a subsequence. */
  lemma {:induction false} SubsequenceDropLast<T>(a: seq<T>, b: seq<T>)
    requires IsSubsequence(a, b) && |a| > 0
    ensures IsSubsequence(a[..|a| - 1], b)
    decreases |b|
  {
    var a' := a[..|a| - 1];
    var b' := b[..|b| - 1];
    if |a'| > 0 {
      if a[|a| - 1] == b[|b| - 1] {
        if a'[|a'| - 1] == b[|b| - 1] {
          SubsequenceDropLast(a', b');
          assert a'[..|a'| - 1] == a[..|a| - 2];
        }
      } else {
        SubsequenceDropLast(a, b');
        if a'[|a'| - 1] == b[|b| - 1] {
          SubsequenceDropLast(a', b');
        }
      }
    }
  }

  /** Appending a record to `b` keeps `a` a subsequence of it. */
  lemma SubsequenceExtend<T>(a: seq<T>, b: seq<T>, m: T)
    requires IsSubsequence(a, b)
    ensures IsSubsequence(a, b + [m])
  {
    assert (b + [m])[..|b|] == b;
    if |a| > 0 && a[|a| - 1] == m {
      SubsequenceDropLast(a, b);
    }
  }

  /** Appending the same record to both keeps the subsequence relation. */
  lemma SubsequenceAppend<T>(a: seq<T>, b: seq<T>, m: T)
    requires IsSubsequence(a, b)
    ensures IsSubsequence(a + [m], b + [m])
  {
    assert (a + [m])[..|a|] == a;
    assert (b + [m])[..|b|] == b;
  }
}
